=== FILE: README.md ===
# PPRO checkout demo — a verified model

This project models the decision logic of a small checkout demo built on the PPRO
payment gateway. The demo has four parts:

- **The server** (`server.js`). It builds the per-method request body for the gateway
  (`generatePaymentData`) and keeps an in-memory idempotency store.
- **`POST /api/payments/create`**. It validates the request, maps the method name to a
  gateway code, chooses the redirect URL or QR payload from the gateway's reply, and
  stores the result. **`GET /api/payments/status/:chargeId`** shapes the status reply.
- **The checkout page** (`app.js`). Its `state` object and radios are updated in place
  by the currency, method and recurring handlers. Its pay handler posts to the server and
  follows the redirect URL. On load it checks a pending charge's status and rechecks
  while that status is processing.
- **The QR payment page and the return page.** The QR page (`generateQRCode.js`) runs a
  five-minute countdown and a status poller on two intervals and has a cancel button.
  The return page (`paymentReturn.js`) classifies a status by keyword, falls back to the
  stored charge id, and decides on load whether to render at once or query the server.

The model is organised as follows:

- **Pure logic** (body builders, classifiers, reply shaping) is written as functions
  with contracts.
- **Code that mutates state** is written as classes whose methods update fields in
  place: `Server.PaymentServer`, `Checkout.CheckoutPage`, `QrPage.QrCheckoutPage` and
  `ReturnPage.ReturnPageView`.
  Each method's contract ties the new state, read through `Snapshot()`, to a
  specification function of the old state. Lemmas then prove the page's invariants
  about those functions.
- **`Agreement`** connects the parts: what each page does with the replies this server
  actually sends.

The gateway, `fetch`, timers, the clock, random ids and the browser's dialogs are not
executed. Their results are parameters:
- a `GatewayReply` and `StatusGatewayReply` for the gateway;
- a create reply and a status reply for the pages;
- interval handles for `setInterval`;
- the order id for the server;
- the idempotency key for the checkout;
- the `confirm()` answer and whether the QR library drew the code.

A navigation scheduled with `setTimeout` is recorded as the page's `navigation`. A
recheck scheduled with `setTimeout` is recorded as a flag on the checkout page and as a
count of scheduled checks on the return page. Timers fire as explicit method calls
(`RecheckStatus`, `TimerTick`, `PollPaymentStatus`, `ReturnPageView.CheckPaymentStatus`).

Observations that the proofs make explicit:
- The QR page reads the status from `data.tatus`, a key the server never sends.
  `Agreement.QrPollNeverConcludes` proves that against this server every poll lets
  polling continue, whatever the charge's status. The page model keeps that reading.
- The server's create result has no `requestUrl`, so the checkout always takes its
  `redirectUrl` branch (`Agreement.CheckoutFollowsServerReply`).
- The return page's `updateUI` shows elements but never hides them. After a pending
  status whose recheck succeeds, the page says "Payment Successful!" with the retry
  button still shown next to the info box (`ReturnPage.PendingThenSuccessShowsRetry`).
- The checkout's exact `switch` and the return page's keyword search agree on the
  statuses the checkout recognises (`Agreement.SwitchAgreesWithClassify`). They
  disagree on others such as "captured" (`Agreement.ClassifyIsBroaderThanSwitch`).

Files:
- `wrappers.dfy`: `Option`, `Result`.
- `js_text.dfy`: the JavaScript string semantics used: truthiness, `||`, `toLowerCase`,
  `includes`/`indexOf`, `replace`, `String(n)`, `padStart`.
- `server.dfy`, `checkout.dfy`, `qr_page.dfy`, `return_page.dfy`: the four source files.
- `agreement.dfy`: the cross-file lemmas.

## Model

| member | source | states |
|---|---|---|
| JsText.Or | paymentReturn.js:24 | `a \|\| b` is truthy exactly when one of them is, and is `a` when `a` is truthy |
| JsText.ToLowerIdempotent | server.js:247 | lower-casing twice is lower-casing once |
| JsText.IncludesIff | paymentReturn.js:60 | `includes` holds exactly when the substring occurs at some index |
| JsText.IndexOfFrom | app.js:186 | the substring search behind `includes` and `replace`: the first index of an occurrence at or after `from`, or -1 when there is none |
| JsText.ReplaceFirst | app.js:185-188 | `replace` with a string pattern replaces exactly the first occurrence and leaves a string without one unchanged |
| JsText.ParseNatToString | generateQRCode.js:95 | the decimal text of `String(n)` reads back as `n` |
| Server.GeneratePaymentData | server.js:102-213 | a body exists exactly for the four gateway codes. The first authentication setting is the REDIRECT to `returnUrl?orderId=…&method=<code>`. The settings that follow are none (IDEAL), MULTI_FACTOR (BLIK), or SCAN_CODE and APP_INTENT (BANCONTACT, BANCONTACTQR). The consumer country is NL, PL or BE. BANCONTACTQR is sent as BANCONTACT. Recurring IDEAL moves the amount into `initialPaymentCharge` and drops the order. |
| Server.RecurringOnlyAffectsIdeal | server.js:126-148 | the recurring flag changes the body of IDEAL only |
| Server.BancontactQrBody | server.js:189-212 | BANCONTACTQR sends BANCONTACT's body except for the method named in its return URL |
| Server.IdempotencyKey | server.js:230 | the key in force is the body's `idempotencyKey` when truthy, else the header's |
| Server.LookupMethodAsWritten | server.js:240-247 | an inherited `Object.prototype` member found by the lookup names no gateway code |
| Server.InheritedKeyPassesMethodGuard | server.js:240-250 | as written, the methods "constructor" and "__proto__" find an inherited member and pass the `!pproMethod` guard, although neither is a gateway code and the intended mapping refuses both |
| Server.MapMethod | server.js:240-250 | the intended mapping: a code exactly for the four case-insensitive method names, each to its own code |
| Server.MapMethodIgnoresCase | server.js:247 | the mapping ignores case |
| Server.MapMethodAgreesOnOwnKeys | server.js:240-247 | the intended mapping and the lookup as written agree wherever the lookup finds an own property |
| Server.GatewayErrorMessage | server.js:72-74 | the message of a failed gateway call is the reply's `error` when truthy, else its `message` when truthy, else "PPRO API request failed"; it is never empty |
| Server.DetailsAt | server.js:278-295 | Reading `authenticationMethods[i].details` succeeds exactly when the list, the entry and its details exist. Each missing link throws the TypeError for the property read on it: the index (or `at`) without a list, `details` without the entry, and the field without details. |
| Server.SelectLinks | server.js:265-299 | recurring reads entry 0's `requestUrl`. Otherwise "bancontact" reads the last entry's `requestUrl`, "bancontactQR" reads entry 1's `codePayload` with an empty URL, and any other method reads entry 0. A missing entry is an error. |
| Server.LowerCaseQrNameReadsFirstEntry | server.js:289-296 | the lower-case name "bancontactqr" maps to BANCONTACTQR, yet its links are read like any other method's, from entry 0 |
| Server.SelectResponse | server.js:301-317 | the result carries the links, the order id (local when recurring, else the gateway's), the charge id (`initialPaymentChargeId` when recurring), the gateway's status and method, and the requested amount and currency. A missing `order` is an error. |
| Server.Create | server.js:220-341 | Missing fields give 400 "Missing required fields" with no call and no store change. A stored key returns the stored result with no call. Past the store, an unknown method gives 400 "Invalid payment method" with no call and no store change, and a known method calls the gateway. A call uses the endpoint chosen by the recurring flag, `generatePaymentData`'s body and the key. A failed call gives 500 with the gateway's message. A reply that cannot be read gives 500 with the TypeError's message. A readable reply gives 200 with `SelectResponse`'s result. Nothing is stored unless the reply is 200; then the result is stored under the key, and a recurring token under the instrument id. |
| Server.RepeatedKeyReturnsStoredResult | server.js:229-237 | a second request with a stored key returns the first reply with no gateway call and no store change |
| Server.EvictedKeyCallsGateway | server.js:96-100 | once the key has been evicted, a valid request with a known method calls the gateway again |
| Server.PaymentServer.constructor | server.js:23-27 | both stores start empty |
| Server.PaymentServer.CheckIdempotency | server.js:89-94 | returns the stored result exactly when the key is stored |
| Server.PaymentServer.StoreIdempotency | server.js:96-97 | stores the result under the key; every other key keeps its entry |
| Server.PaymentServer.EvictIdempotency | server.js:98-99 | the eviction timer removes exactly that key |
| Server.PaymentServer.CreatePayment | server.js:220-341 | the reply, the gateway call and the new stores are those of `Create` on the old stores |
| Server.PaymentStatus | server.js:346-372 | A failed lookup gives 500 with the gateway's message as `error`. A found charge gives 200 exactly when its `amount` is truthy or it has `authorizations`, else 500 with the TypeError's message. A 200 reply holds `success: true`, the requested charge id, the charge's status, currency and method, the amount `charge.amount \|\| charge.authorizations.amount`, and the redirect URL `returnUrl?orderId=undefined&status=…&chargeId=…`. It has no key beyond those seven. |
| Server.StatusBody | server.js:356-367 | the 200 body has only the seven keys, and each of its fields is the value it is given; undefined fields are dropped |
| ReturnPage.Classify | paymentReturn.js:58-114 | Categories are tried in order. Success: the lower-cased status contains "success" or "captured". Pending: it contains "pending" or "processing". Failed: "failed" or "error". Cancelled: "cancel". Expired: "expired". Anything else is Unknown. Each case is stated as an if-and-only-if. |
| ReturnPage.ClassifyIsFirstMatchingRule | paymentReturn.js:58-114 | the if/else chain equals the first matching rule of the keyword table |
| ReturnPage.ClassifyIgnoresCase | paymentReturn.js:58 | classification ignores case |
| ReturnPage.MissingStatusIsUnknown | paymentReturn.js:106-114 | a missing or empty status is Unknown |
| ReturnPage.ErrorStatusIsFailed | paymentReturn.js:149-157 | the "Error" status shown after a failed check is classified Failed |
| ReturnPage.StatusView | paymentReturn.js:41-115 | What one `updateUI` call writes. The category is `Classify`'s, and the icon, title and message are the category's. A recheck is scheduled exactly for Pending. The retry button is shown exactly for Pending or Unknown, and the info box exactly for Success. Error details are written exactly for Failed with a truthy error. The texts fall back to "-". |
| ReturnPage.Render | paymentReturn.js:41-115 | After one call the heading and the detail texts are replaced. The retry button, the error details and the info box are shown if they were shown before or the call shows them. A scheduled recheck is counted. |
| ReturnPage.RetryClicked | paymentReturn.js:160-169 | the retry click shows the spinner heading, hides the retry button, schedules one check and changes nothing else |
| ReturnPage.RenderNeverHides | paymentReturn.js:41-115 | `updateUI` never hides the retry button, the error details or the info box |
| ReturnPage.PendingThenSuccessShowsRetry | paymentReturn.js:60-81 | a pending status followed by a successful one leaves "Payment Successful!" shown with both the retry button and the info box visible |
| ReturnPage.RetryThenRender | paymentReturn.js:160-169 | after a retry click, the retry button is shown again exactly when the next status rendered shows it |
| ReturnPage.ChargeIdFallback | paymentReturn.js:19-27 | the URL's charge id when truthy, else the session's |
| ReturnPage.FallbackTwiceIsOnce | paymentReturn.js:121 | applying the fallback again in `checkPaymentStatus` changes nothing |
| ReturnPage.StatusCheck | paymentReturn.js:118-158 | It fetches exactly when a charge id is known. Without an id it renders exactly the `updateUI` view of the URL status (or "Unknown"), the URL's method, no charge id and the no-charge-id error, so a pending status still shows Retry and schedules a recheck. A failed fetch or `success: false` renders "Error" as a failure, with the error's message, the fetched charge id and the URL's method. A success renders the reported status. |
| ReturnPage.CheckErrorMessage | paymentReturn.js:139-153 | The message of a failed check: a failed fetch's own message, or "Failed to verify payment status" when it is empty. For `success: false` it is the reply's error when truthy, else "Failed to fetch payment status". It is never empty. |
| ReturnPage.LoadDecision | paymentReturn.js:172-193 | it queries the server exactly when the URL status is empty or says pending/processing, and otherwise renders the URL status |
| ReturnPage.RenderedOnLoadIsSettled | paymentReturn.js:179-192 | a status rendered directly on load is never Pending and never schedules a recheck |
| ReturnPage.ReturnPageView.constructor | paymentReturn.js:5-16 | the elements start as the markup sets them up |
| ReturnPage.ReturnPageView.UpdateUI | paymentReturn.js:41-115 | the new elements are `Render` of the old with `StatusView`'s writes |
| ReturnPage.ReturnPageView.Write | paymentReturn.js:51-114 | the new elements are `Render` of the old with the given writes |
| ReturnPage.ReturnPageView.RetryClick | paymentReturn.js:160-169 | the new elements are `RetryClicked` of the old |
| ReturnPage.ReturnPageView.CheckPaymentStatus | paymentReturn.js:118-158 | the fetched id is `StatusCheck`'s, and the new elements render its view over the old |
| ReturnPage.ReturnPageView.OnLoad | paymentReturn.js:172-193 | the new elements are `Loaded` of the old: a scheduled check, or the URL status rendered |
| QrPage.FormatClockRoundTrip | generateQRCode.js:93-95 | For every time that is not negative, the text is MM:SS: at least two minute digits, a colon, and two second digits. It is five characters below 100 minutes and reads back as the time. |
| QrPage.Stop | generateQRCode.js:157-166 | both handles are forgotten, exactly the held intervals are cleared, nothing else changes, and the invariant is kept |
| QrPage.StopIdempotent | generateQRCode.js:157-166 | stopping twice is stopping once |
| QrPage.Expire | generateQRCode.js:99-107 | expiry clears both intervals and shows EXPIRED and the expiry message. It hides "Check Status" and turns cancel into "Return to Checkout". |
| QrPage.Tick | generateQRCode.js:90-108 | One firing decrements the time and keeps the invariant. The timer keeps running exactly while time remains. While it runs, the text shows the time left as MM:SS and nothing else changes. The last firing shows EXPIRED and the expiry message, stops both intervals, hides "Check Status" and shows "Return to Checkout", and changes nothing else. |
| QrPage.Ticks | generateQRCode.js:90-108 | any number of firings up to the remaining time keeps the invariant |
| QrPage.CountdownExpires | generateQRCode.js:90-108 | After `k < n` firings the timer still runs, `n - k` is left and, from the first firing on, the text shows `n - k` as MM:SS. After exactly `n` it shows EXPIRED, and both intervals are cleared. |
| QrPage.CountdownShowsTime | generateQRCode.js:90-97 | while the countdown runs, the text after `k` firings shows `n - k` as MM:SS |
| QrPage.InitializeStartsIntervals | generateQRCode.js:205-242 | Both intervals start, with the fresh handles, exactly when `qrData` is truthy and the code was drawn. Otherwise none starts. The invariant is kept. |
| QrPage.ExpiresAfterFiveMinutes | generateQRCode.js:86-109 | after 299 firings polling still runs; after 300 the page shows EXPIRED and no interval is left running |
| QrPage.ClassifyPoll | generateQRCode.js:112-145 | A poll is skipped exactly without a charge id. A failed fetch, a falsy `success` or a status that is not a string lets polling continue. Otherwise, on the lower-cased `tatus` text: success exactly when it contains success/captured; decline exactly when it contains failed/error/cancel and neither of those; anything else continues. A reply without `tatus` lets polling continue. |
| QrPage.Poll | generateQRCode.js:112-145 | Continuing or skipping changes nothing. A verdict stops both intervals. Success schedules the return page with status=success. A decline shows "Check Status". On a verdict the new state is the stopped page with only the verdict's message and its navigation or button changed. |
| QrPage.Cancel | generateQRCode.js:176-189 | Both intervals always stop. It navigates to "/" after expiry, otherwise to the cancelled return page only when confirmed. |
| QrPage.QrCheckoutPage.constructor | generateQRCode.js:7-17 | the page starts in the initial state |
| QrPage.QrCheckoutPage.StopPolling | generateQRCode.js:157-166 | the new state is `Stop` of the old |
| QrPage.QrCheckoutPage.TimerTick | generateQRCode.js:90-108 | the new state is `Tick` of the old |
| QrPage.QrCheckoutPage.ExpireTimer | generateQRCode.js:99-107 | the new state is `Expire` of the old |
| QrPage.QrCheckoutPage.PollPaymentStatus | generateQRCode.js:112-145 | the verdict is `ClassifyPoll`'s and the new state is `Poll` of the old |
| QrPage.QrCheckoutPage.CancelPayment | generateQRCode.js:176-189 | the new state is `Cancel` of the old |
| QrPage.QrCheckoutPage.Initialize | generateQRCode.js:205-242 | the new state is `Initialized` of the old |
| Checkout.PayRequest | app.js:118-134 | A request is sent exactly when a method is selected. It carries that method, the selected currency, 11979 cents, the recurring flag and the generated key. |
| Checkout.RedirectChoice | app.js:176-194 | The choice succeeds exactly when `requestUrl` or `redirectUrl` is truthy, and `requestUrl` wins. A `redirectUrl` has its first `{{chargeId}}` replaced by the charge id. Otherwise the error is "No redirect URL received". |
| Checkout.ChargeIdSubstituted | app.js:185-188 | a redirect URL whose text before the placeholder has no `{` gets the charge id exactly in the placeholder's place |
| Checkout.PayWithoutMethod | app.js:118-126 | without a selected method, paying shows the error, sends nothing and changes nothing else |
| Checkout.PayOutcomes | app.js:118-199 | A request that throws shows its message or "Payment failed. Please try again." and re-enables the button. A failed reply shows `data.error` or the default and re-enables the button. A success stores the charge id and the key in sessionStorage. It then either shows the redirect line and schedules the redirect with the button still disabled, or shows "No redirect URL received". An idle button is always enabled. |
| Checkout.StatusSwitch | app.js:242-258 | the branch is taken on exact lower-cased matches of successful/success, pending/processing or failed/error, each stated as an if-and-only-if |
| Checkout.SwitchIsExact | app.js:242 | "payment success" falls to the default branch; "SUCCESS" is paid |
| Checkout.CheckById | app.js:230-264 | The check completes exactly when the reply is ok and has a status. A recheck is scheduled exactly for processing. Each branch shows its own line, and any other status shows "Payment status: " followed by the status. |
| Checkout.Recheck | app.js:230-264 | A recheck that completes replaces only the status line and schedules the next recheck exactly while processing. One that throws only ends the rechecks and shows nothing. |
| Checkout.CheckOnLoadOutcomes | app.js:202-227 | The check runs only with both a pending charge id and a URL status. A completed check shows its branch's line, schedules the recheck exactly while processing, cleans the URL and removes exactly the two session keys. A failed one keeps them, leaves "Verifying payment..." and shows "Failed to verify payment status". Nothing else on the page changes. |
| Checkout.InitialConsistent | app.js:8-14 | the page starts consistent: no selection, no checked radio, recurring off |
| Checkout.PayButtonFacts | app.js:106-115 | the pay button is enabled exactly when a method is selected, and nothing but the button changes |
| Checkout.AvailabilityFacts | app.js:65-88 | A radio is disabled exactly when it names another currency, and stays checked exactly when it was checked and allowed. The selection is cleared exactly when a checked radio is ruled out. |
| Checkout.AvailabilityKeepsConsistent | app.js:65-88 | updating availability keeps the selection consistent with the radios |
| Checkout.ChangeCurrencyKeepsConsistent | app.js:39-43 | changing the currency keeps the page consistent |
| Checkout.SelectMethodFacts | app.js:46-52 | Selecting an enabled radio selects its value. A method other than iDEAL switches recurring off and hides it; iDEAL shows it and keeps the flag. The page stays consistent. |
| Checkout.ToggleKeepsConsistent | app.js:55-57 | toggling recurring while the option is shown keeps the page consistent |
| Checkout.PayKeepsConsistent | app.js:118-148 | paying keeps the page consistent |
| Checkout.StatusCheckKeepsConsistent | app.js:202-264 | the status check and its rechecks keep the page consistent |
| Checkout.CheckoutPage.constructor | app.js:8-14 | the page starts with the initial state and the markup's radios |
| Checkout.CheckoutPage.UpdatePayButton | app.js:106-115 | the new state is `PayButton` of the old |
| Checkout.CheckoutPage.UpdatePaymentMethodAvailability | app.js:65-88 | the loop's result is `UpdateAvailability` of the old state |
| Checkout.CheckoutPage.UpdateRecurringOption | app.js:91-103 | the new state is `RecurringOption` of the old |
| Checkout.CheckoutPage.OnCurrencyChange | app.js:39-43 | the new state is `ChangeCurrency` of the old |
| Checkout.CheckoutPage.OnMethodChange | app.js:46-52 | the new state is `SelectMethod` of the old |
| Checkout.CheckoutPage.OnRecurringToggle | app.js:55-57 | the new state is `ToggleRecurring` of the old |
| Checkout.CheckoutPage.HandlePayment | app.js:118-148 | the request sent is `PayRequest`'s and the new state is `Pay` of the old |
| Checkout.CheckoutPage.CheckPaymentStatus | app.js:202-227 | the new state is `CheckOnLoad` of the old |
| Checkout.CheckoutPage.Load | app.js:30-34 | on load, availability is updated first and the status check follows |
| Checkout.CheckoutPage.RecheckStatus | app.js:248-250 | the new state is `Recheck` of the old: the status line of the reply's branch, and the next recheck only while processing |
| Agreement.CheckoutRequestIsComplete | server.js:222-230 | Every checkout request passes the server's required-field check exactly when a currency is selected. It is filed under the checkout's key. |
| Agreement.CheckoutFollowsServerReply | app.js:162-194 | Against this server the checkout shows "Redirecting to payment page..." and schedules the server's `redirectUrl`. Without a redirect URL it shows "No redirect URL received". An error reply shows the server's message. |
| Agreement.QrPollNeverConcludes | generateQRCode.js:125 | every status reply of this server lets the QR page keep polling |
| Agreement.CheckoutReadsServerStatus | app.js:232-242 | a failed lookup, or a charge with neither amount nor authorizations, makes the checkout's check throw; a readable charge with a status gives the checkout's check exactly the result of reading that status directly, so it is shown by its branch's line |
| Agreement.SwitchAgreesWithClassify | app.js:242-258 | statuses the checkout calls paid, processing or declined, the return page calls success, pending or failed |
| Agreement.ClassifyIsBroaderThanSwitch | paymentReturn.js:60-105 | "captured" is a success on the return page but the checkout's default branch; so is "cancelled" for the checkout |

## Left out

- `fetch`, `setTimeout`/`setInterval`, `Date.now`, `Math.random` and `crypto.randomBytes` are not executed. Their results (replies, handles, ids, keys) are parameters. A delay is the order in which the caller invokes the handlers.
- The QRCode library is not modelled; whether it drew the code is the `qrDrawn` parameter of `Initialize`.
- `confirm()` is not modelled; its answer is the `confirmed` parameter of `CancelPayment`.
- The gateway request itself (`pproRequest`'s headers and URL) is not modelled. The handler reports the endpoint, body and key it would send, and the reply is an input.
- `formatAmount` and the QR page's amount and title texts are display formatting with floating point (`toFixed`), so they are not modelled.
- Styling, CSS classes, animations, `scrollIntoView` and `console` output are not modelled.
- The re-enable timer of the QR page's "Check Status" button is not modelled; the button's click is `PollPaymentStatus`.
- The QR page's timer text before the first firing comes from the HTML markup, which is not part of this model.
- The return page's initial elements come from its HTML markup, which is not part of this model; they are the constructor's parameter.
- Express wiring, the static routes, `/health`, `/api` and the generic error handler are not modelled. The `details` field of the create handler's 500 body is not modelled either.
- The recurring token store is written and never read by the source. The model records its writes only.
- `ToLower` lower-cases ASCII letters only; `toLowerCase` on other letters is not modelled.
- `JsText.ReplaceFirst` treats the replacement literally; the `$` patterns of `String.prototype.replace` are not modelled. The replacement here is a charge id.
- JSON fields are modelled as strings or absent. A field of another JSON type in a reply is not modelled, except a non-string truthy `tatus`, which throws on the QR page.
- Checkout.PayButtonFacts: the pay button is enabled on a truthy `selectedMethod`. A selected radio whose value is the empty string is therefore treated as no selection, as `if (state.selectedMethod)` does.
- Server.RepeatedKeyReturnsStoredResult: holds for requests handled one after another. `Server.Create` is one atomic step, but the handler awaits the gateway between checking the key and storing the result. Two concurrent requests with the same key therefore both call the gateway; that interleaving is not modelled.
- Server.Create: a method name found only on `Object.prototype` is refused with 400 by the corrected mapping `MapMethod`. The source's behaviour for it is captured by `Server.InheritedKeyPassesMethodGuard` (see Findings).

## Findings

| source | as written | input that shows it | evidently intended | confidence | as-written member | corrected member |
|---|---|---|---|---|---|---|
| server.js:240-250 | `methodMap[method.toLowerCase()]` is a property lookup on an object literal, so it also finds members inherited from `Object.prototype`. After lower-casing, "constructor" and "__proto__" reach such members (a function and the prototype object). Both are truthy and pass the `!pproMethod` guard. `generatePaymentData` then returns undefined, and the gateway is called without a body. | method "constructor" (or "__proto__") | only the four method names map to a code; every other name gets 400 "Invalid payment method" | not executed | Server.InheritedKeyPassesMethodGuard | Server.MapMethod |

=== FILE: agreement.dfy ===
/**
 * How the three pages read what the server sends: the server's replies decoded as
 * the pages' `response.json()` sees them, and what each page then does with them.
 * Each page is modelled on its own; these lemmas connect them.
 */
module Agreement {
  import opened Wrappers
  import opened JsText
  import Server
  import Checkout
  import QrPage
  import ReturnPage

  // ---------------------------------------------------------------------------
  // Checkout page -> POST /api/payments/create
  // ---------------------------------------------------------------------------

  /** The checkout's JSON body as the create handler destructures it; the key also travels as the header. */
  function ToServer(req: Checkout.PaymentRequest): Server.CreateRequest {
    Server.CreateRequest(Some(req.methodName), Some(req.currency), Some(req.amount), req.recurring,
                         Some(req.idempotencyKey))
  }

  /**
   * Every request the checkout sends passes the server's required-field check as
   * long as a currency is selected, and the server files it under the checkout's key.
   */
  lemma CheckoutRequestIsComplete(s: Checkout.AppState, key: string)
    requires Truthy(s.selectedMethod)
    ensures var req := ToServer(Checkout.PayRequest(s, key).value);
      && (Server.HasRequiredFields(req) <==> s.selectedCurrency != "")
      && Server.IdempotencyKey(req, Some(key)) == Some(key)
  {
  }

  /** The create handler's reply as `response.json()` hands it to handleRedirectFlow. */
  function AsCreateReply(r: Server.HttpReply): Checkout.CreateReply {
    match r
    case Json200(res) => Checkout.CreateJson(true, None, res.chargeId, res.paymentMethod, None, res.redirectUrl)
    case Status400(e) => Checkout.CreateJson(false, Some(e), None, None, None, None)
    case Status500(e) => Checkout.CreateJson(false, Some(e), None, None, None, None)
  }

  /**
   * The server's create result has no `requestUrl`, so the checkout always takes its
   * `redirectUrl` branch: with a redirect URL it shows "Redirecting to payment page..."
   * and schedules that URL (placeholder substituted), without one it shows
   * "No redirect URL received"; an error reply shows the server's message.
   */
  lemma CheckoutFollowsServerReply(p: Checkout.PageState, key: string, r: Server.HttpReply)
    requires Truthy(p.state.selectedMethod)
    ensures var q := Checkout.Pay(p, key, AsCreateReply(r));
      && (r.Json200? && Truthy(r.result.redirectUrl) ==>
            && q.ui.status == Some(Checkout.TO_PAYMENT_PAGE)
            && q.ui.navigation == Some(Checkout.RedirectChoice(None, r.result.redirectUrl, r.result.chargeId,
                                                               r.result.paymentMethod).value.1)
            && q.state.currentChargeId == r.result.chargeId)
      && (r.Json200? && !Truthy(r.result.redirectUrl) ==> q.ui.error == Some(Checkout.NO_REDIRECT))
      && (r.Status400? || r.Status500? ==>
            q.ui.error == Some(OrElse(Some(r.error), Checkout.CREATE_FAILED)) && q.session == p.session)
  {
    Checkout.PayOutcomes(p, key, AsCreateReply(r));
  }

  // ---------------------------------------------------------------------------
  // Pages -> GET /api/payments/status/:chargeId
  // ---------------------------------------------------------------------------

  /** The status handler's reply as checkPaymentStatusById reads it: `response.ok` and `data.status`. */
  function AsStatusReply(r: Server.JsonReply): Checkout.StatusReply {
    var status := match Get(r.body, "status")
      case Some(JStr(s)) => Some(s)
      case _ => None;
    Checkout.StatusJson(r.httpStatus == 200, status)
  }

  /**
   * The QR page reads `data.tatus`, a key the status handler never sends: against
   * this server every poll, whatever the charge's status, lets polling go on, so
   * the page learns of a success or a decline only through the countdown running out.
   */
  lemma QrPollNeverConcludes(chargeId: Option<string>, param: string, reply: Server.StatusGatewayReply, returnUrl: string)
    requires Truthy(chargeId)
    ensures QrPage.ClassifyPoll(chargeId, QrPage.PollJson(Server.PaymentStatus(param, reply, returnUrl).body))
            == QrPage.Continue
  {
    var r := Server.PaymentStatus(param, reply, returnUrl);
    assert "tatus" !in r.body.Keys;
  }

  /**
   * A status the server reports for a charge reaches the checkout's switch
   * unchanged: a found charge whose amount can be read and which has a status is
   * shown exactly as that status read directly would be, by its branch; a failed
   * lookup, or a charge with neither an amount nor authorizations, makes the
   * check throw.
   */
  lemma CheckoutReadsServerStatus(param: string, reply: Server.StatusGatewayReply, returnUrl: string)
    ensures var r := Server.PaymentStatus(param, reply, returnUrl);
      && (reply.StatusFailed? || (reply.StatusOk? && !Server.AmountReadable(reply.charge)) ==>
            Checkout.CheckById(AsStatusReply(r)).Err?)
      && (reply.StatusOk? && Server.AmountReadable(reply.charge) && reply.charge.status.Some? ==>
            && Checkout.CheckById(AsStatusReply(r)).Ok?
            && (Checkout.CheckById(AsStatusReply(r)).value.1 <==>
                  Checkout.StatusSwitch(reply.charge.status.value) == Checkout.Processing)
            && Checkout.CheckById(AsStatusReply(r)) == Checkout.CheckById(Checkout.StatusJson(true, reply.charge.status)))
  {
  }

  // ---------------------------------------------------------------------------
  // The checkout's switch against the return page's classifier
  // ---------------------------------------------------------------------------

  lemma NotIn(t: string, sub: string)
    requires |t| < |sub| || (|t| == |sub| && t != sub)
    ensures !Includes(t, sub)
  {
    if |t| < |sub| { IncludesTooShort(t, sub); } else { IncludesSameLength(t, sub); }
  }

  lemma ProcessingHasNoSuccess()
    ensures !Includes("processing", "success") && !Includes("processing", "captured")
  {
    IncludesIff("processing", "success");
    IncludesIff("processing", "captured");
    forall i: nat ensures !MatchAt("processing", "success", i) && !MatchAt("processing", "captured", i) {
      if i + 7 <= 10 {
        assert "processing"[i..i + 7][1] == "processing"[i + 1];
        assert "success"[1] == 'u';
      }
    }
  }

  /**
   * The checkout's branches agree with the return page's categories: a status the
   * checkout calls paid, processing or declined, the return page calls a success,
   * pending or failed.
   */
  lemma {:induction false} SwitchAgreesWithClassify(s: string)
    ensures Checkout.StatusSwitch(s) == Checkout.Paid ==> ReturnPage.Classify(Some(s)) == ReturnPage.Success
    ensures Checkout.StatusSwitch(s) == Checkout.Processing ==> ReturnPage.Classify(Some(s)) == ReturnPage.Pending
    ensures Checkout.StatusSwitch(s) == Checkout.Declined ==> ReturnPage.Classify(Some(s)) == ReturnPage.Failed
  {
    var t := ToLower(s);
    assert ReturnPage.StatusText(Some(s)) == t;
    match Checkout.StatusSwitch(s)
    case Paid =>
      if t == "success" { IncludesSameLength(t, "success"); }
      else { IncludesPrefix(t, "success"); }
    case Processing =>
      if t == "pending" {
        NotIn(t, "success"); NotIn(t, "captured");
        IncludesSameLength(t, "pending");
      } else {
        ProcessingHasNoSuccess();
        IncludesSameLength(t, "processing");
      }
    case Declined =>
      NotIn(t, "success"); NotIn(t, "captured"); NotIn(t, "pending"); NotIn(t, "processing");
      if t == "failed" { IncludesSameLength(t, "failed"); } else { IncludesSameLength(t, "error"); }
    case OtherStatus =>
  }

  /**
   * The converse does not hold: the return page counts "captured" as a success and
   * "cancelled" as cancelled, where the checkout falls to its default branch.
   */
  lemma ClassifyIsBroaderThanSwitch()
    ensures Checkout.StatusSwitch("captured") == Checkout.OtherStatus
    ensures ReturnPage.Classify(Some("captured")) == ReturnPage.Success
    ensures Checkout.StatusSwitch("cancelled") == Checkout.OtherStatus
  {
    LowerIsFixed("captured");
    LowerIsFixed("cancelled");
    assert ReturnPage.StatusText(Some("captured")) == "captured";
    IncludesSameLength("captured", "captured");
  }
}

=== FILE: checkout.dfy ===
/**
 * The checkout page (app.js): the page's `state` object, the payment-method radios,
 * what the page shows (the recurring option, the pay button, the error and status
 * lines, a scheduled navigation) and sessionStorage, updated in place by the event
 * handlers. The create and status API replies are inputs; a navigation scheduled
 * with `setTimeout` is recorded in `navigation`.
 */
module Checkout {
  import opened Wrappers
  import opened JsText

  const IDEAL := "ideal"
  const AMOUNT_CENTS := 11979
  const PENDING_CHARGE_KEY := "pendingChargeId"
  const IDEMPOTENCY_KEY := "idempotencyKey"
  const CHARGE_ID_PLACEHOLDER := "{{chargeId}}"

  const PAY_TEXT := "Pay €119.79"
  const SELECT_TEXT := "Select a payment method"
  const NO_METHOD_ERROR := "Please select a payment method"
  const PAYMENT_FAILED := "Payment failed. Please try again."
  const CREATE_FAILED := "Failed to create payment"
  const NO_REDIRECT := "No redirect URL received"
  const TO_PAYMENT_PAGE := "Redirecting to payment page..."
  const VERIFYING := "Verifying payment..."
  const VERIFY_FAILED := "Failed to verify payment status"
  const PAID := "✓ Payment successful! Thank you for your purchase."
  const PROCESSING := "⏳ Payment is being processed..."
  const DECLINED := "✗ Payment failed. Please try again."

  // ---------------------------------------------------------------------------
  // The page state
  // ---------------------------------------------------------------------------

  /** One `.payment-method` entry: its radio's value, its `data-currency` attribute and the radio's flags. */
  datatype Radio = Radio(value: string, allowedCurrency: Option<string>, checked: bool, disabled: bool)

  /** The module-level `state` object (its unused `dropinInstance` aside). */
  datatype AppState = AppState(
    selectedMethod: Option<string>,
    selectedCurrency: string,
    recurringEnabled: bool,
    currentChargeId: Option<string>)

  /**
   * What the page shows: the recurring option and its checkbox, the pay button
   * (enabled, its text, its loading state), the error and status lines (None when
   * hidden), the navigation scheduled, whether a status recheck is scheduled and
   * whether the URL's query was cleaned up.
   */
  datatype Ui = Ui(
    recurringShown: bool,
    recurringChecked: bool,
    payButtonEnabled: bool,
    payButtonText: string,
    loading: bool,
    error: Option<string>,
    status: Option<string>,
    navigation: Option<string>,
    recheckScheduled: bool,
    urlCleaned: bool)

  datatype PageState = PageState(radios: seq<Radio>, state: AppState, ui: Ui, session: map<string, string>)

  /** The page as loaded, before the DOMContentLoaded handler: the markup's radios and the tab's sessionStorage. */
  function InitialPage(markup: seq<Radio>, session: map<string, string>): PageState {
    PageState(markup, AppState(None, "EUR", false, None),
              Ui(false, false, false, SELECT_TEXT, false, None, None, None, false, false), session)
  }

  /** A radio is usable under `currency` unless it names a different currency. */
  predicate Allowed(r: Radio, currency: string) {
    !(Truthy(r.allowedCurrency) && r.allowedCurrency.value != currency)
  }

  /** No two radios are checked at once. */
  predicate AtMostOneChecked(rs: seq<Radio>) {
    forall i, j :: 0 <= i < |rs| && 0 <= j < |rs| && rs[i].checked && rs[j].checked ==> i == j
  }

  /** `selectedMethod` is the value of the checked radio, and null exactly when none is checked. */
  predicate SelectionMatches(rs: seq<Radio>, selected: Option<string>) {
    && AtMostOneChecked(rs)
    && (selected.None? <==> forall i :: 0 <= i < |rs| ==> !rs[i].checked)
    && (selected.Some? ==> exists i :: 0 <= i < |rs| && rs[i].checked && rs[i].value == selected.value)
  }

  /**
   * What the handlers keep true: the selection matches the radios, no checked radio
   * is disabled, recurring is on only while its option is shown, the option is
   * shown only for iDEAL or no method, and an idle pay button is enabled exactly
   * when a method is selected.
   */
  predicate Consistent(p: PageState) {
    && SelectionMatches(p.radios, p.state.selectedMethod)
    && (forall i :: 0 <= i < |p.radios| && p.radios[i].checked ==> !p.radios[i].disabled)
    && (p.state.recurringEnabled ==> p.ui.recurringShown)
    && (p.ui.recurringShown ==> p.state.selectedMethod == None || p.state.selectedMethod == Some(IDEAL))
    && (!p.ui.loading ==> p.ui.payButtonEnabled == Truthy(p.state.selectedMethod))
  }

  // ---------------------------------------------------------------------------
  // The handlers, as functions of the page state
  // ---------------------------------------------------------------------------

  /** updatePayButton. */
  function PayButton(p: PageState): PageState {
    if Truthy(p.state.selectedMethod) then p.(ui := p.ui.(payButtonEnabled := true, payButtonText := PAY_TEXT))
    else p.(ui := p.ui.(payButtonEnabled := false, payButtonText := SELECT_TEXT))
  }

  /** The loop body of updatePaymentMethodAvailability on one radio. */
  function Availability(r: Radio, currency: string): Radio {
    if Allowed(r, currency) then r.(disabled := false)
    else r.(disabled := true, checked := false)
  }

  /** A checked radio the currency rules out lies among the first `n`. */
  predicate ClearsWithin(rs: seq<Radio>, currency: string, n: int) {
    exists j :: 0 <= j < n && j < |rs| && rs[j].checked && !Allowed(rs[j], currency)
  }

  /** Every radio after the loop of updatePaymentMethodAvailability. */
  function AvailableRadios(rs: seq<Radio>, currency: string): (r: seq<Radio>)
    ensures |r| == |rs|
  {
    seq(|rs|, j requires 0 <= j < |rs| => Availability(rs[j], currency))
  }

  /** updatePaymentMethodAvailability: the loop over the radios, then updatePayButton. */
  function UpdateAvailability(p: PageState): PageState {
    var currency := p.state.selectedCurrency;
    var cleared := ClearsWithin(p.radios, currency, |p.radios|);
    PayButton(p.(radios := AvailableRadios(p.radios, currency),
                 state := p.state.(selectedMethod := if cleared then None else p.state.selectedMethod)))
  }

  /** updateRecurringOption. */
  function RecurringOption(p: PageState): PageState {
    if p.state.selectedMethod == Some(IDEAL) then p.(ui := p.ui.(recurringShown := true))
    else p.(state := p.state.(recurringEnabled := false), ui := p.ui.(recurringShown := false, recurringChecked := false))
  }

  /** The currency select's change handler. */
  function ChangeCurrency(p: PageState, currency: string): PageState {
    PayButton(UpdateAvailability(p.(state := p.state.(selectedCurrency := currency))))
  }

  /** The radios once the browser has checked radio `i` and unchecked the rest of the group. */
  function CheckOnly(rs: seq<Radio>, i: int): (r: seq<Radio>)
    ensures |r| == |rs|
  {
    seq(|rs|, j requires 0 <= j < |rs| => rs[j].(checked := j == i))
  }

  /** A radio's change handler, after the browser has checked radio `i`. */
  function SelectMethod(p: PageState, i: int): PageState
    requires 0 <= i < |p.radios|
  {
    var picked := p.(radios := CheckOnly(p.radios, i), state := p.state.(selectedMethod := Some(p.radios[i].value)));
    PayButton(RecurringOption(picked))
  }

  /** The recurring checkbox's change handler. */
  function ToggleRecurring(p: PageState, checked: bool): PageState {
    p.(state := p.state.(recurringEnabled := checked), ui := p.ui.(recurringChecked := checked))
  }

  // ---------------------------------------------------------------------------
  // Paying
  // ---------------------------------------------------------------------------

  /** The body (and `X-Idempotency-Key` header) of `POST /api/payments/create`. */
  datatype PaymentRequest = PaymentRequest(
    methodName: string, currency: string, amount: int, recurring: bool, idempotencyKey: string)

  /** The decoded reply of the create request, or a fetch or JSON decoding that threw with `message`. */
  datatype CreateReply =
    | CreateThrew(message: string)
    | CreateJson(success: bool, error: Option<string>, chargeId: Option<string>, methodName: Option<string>,
                 requestUrl: Option<string>, redirectUrl: Option<string>)

  /** The request handlePayment sends, if any: none without a selected method. */
  function PayRequest(s: AppState, key: string): (r: Option<PaymentRequest>)
    ensures r.Some? <==> Truthy(s.selectedMethod)
    ensures r.Some? ==>
      && r.value.methodName == s.selectedMethod.value
      && r.value.currency == s.selectedCurrency
      && r.value.amount == 11979
      && r.value.recurring == s.recurringEnabled
      && r.value.idempotencyKey == key
  {
    if Truthy(s.selectedMethod) then
      Some(PaymentRequest(s.selectedMethod.value, s.selectedCurrency, AMOUNT_CENTS, s.recurringEnabled, key))
    else None
  }

  /**
   * The redirect choice of handleRedirectFlow: a truthy `requestUrl` wins (with the
   * status line naming the method), else a truthy `redirectUrl` with its first
   * `{{chargeId}}` replaced by the charge id, else the error "No redirect URL received".
   * Returns the status line and the target.
   */
  function RedirectChoice(requestUrl: Option<string>, redirectUrl: Option<string>, chargeId: Option<string>,
                          methodName: Option<string>): (r: Result<(string, string)>)
    ensures r.Ok? <==> Truthy(requestUrl) || Truthy(redirectUrl)
    ensures r.Err? ==> r.error == NO_REDIRECT
    ensures Truthy(requestUrl) ==> r == Ok(("Redirecting to " + ShowUndefined(methodName) + "...", requestUrl.value))
    ensures !Truthy(requestUrl) && Truthy(redirectUrl) ==>
      && r.value.0 == TO_PAYMENT_PAGE
      && (!Includes(redirectUrl.value, CHARGE_ID_PLACEHOLDER) ==> r.value.1 == redirectUrl.value)
      && (Includes(redirectUrl.value, CHARGE_ID_PLACEHOLDER) ==>
            exists i: nat ::
              && MatchAt(redirectUrl.value, CHARGE_ID_PLACEHOLDER, i)
              && (forall j: nat :: j < i ==> !MatchAt(redirectUrl.value, CHARGE_ID_PLACEHOLDER, j))
              && r.value.1 == redirectUrl.value[..i] + ShowUndefined(chargeId)
                              + redirectUrl.value[i + |CHARGE_ID_PLACEHOLDER|..])
  {
    if Truthy(requestUrl) then Ok(("Redirecting to " + ShowUndefined(methodName) + "...", requestUrl.value))
    else if Truthy(redirectUrl) then
      var target := redirectUrl.value;
      var target' := if Includes(target, CHARGE_ID_PLACEHOLDER)
                     then ReplaceFirst(target, CHARGE_ID_PLACEHOLDER, ShowUndefined(chargeId))
                     else target;
      Ok((TO_PAYMENT_PAGE, target'))
    else Err(NO_REDIRECT)
  }

  /**
   * A redirect URL whose text before the placeholder has no `{` gets the charge id
   * exactly where the placeholder was.
   */
  lemma ChargeIdSubstituted(pre: string, post: string, chargeId: string, methodName: Option<string>)
    requires forall k :: 0 <= k < |pre| ==> pre[k] != '{'
    ensures RedirectChoice(None, Some(pre + CHARGE_ID_PLACEHOLDER + post), Some(chargeId), methodName)
            == Ok((TO_PAYMENT_PAGE, pre + chargeId + post))
  {
    var url := pre + CHARGE_ID_PLACEHOLDER + post;
    assert url[|pre|..|pre| + |CHARGE_ID_PLACEHOLDER|] == CHARGE_ID_PLACEHOLDER;
    assert MatchAt(url, CHARGE_ID_PLACEHOLDER, |pre|);
    IncludesIff(url, CHARGE_ID_PLACEHOLDER);
    forall j: nat | j < |pre|
      ensures !MatchAt(url, CHARGE_ID_PLACEHOLDER, j)
    {
      assert url[j] == pre[j];
      if j + |CHARGE_ID_PLACEHOLDER| <= |url| {
        assert url[j..j + |CHARGE_ID_PLACEHOLDER|][0] == url[j];
      }
    }
    var r := RedirectChoice(None, Some(url), Some(chargeId), methodName);
    var i: nat :| && MatchAt(url, CHARGE_ID_PLACEHOLDER, i)
                  && (forall j: nat :: j < i ==> !MatchAt(url, CHARGE_ID_PLACEHOLDER, j))
                  && r.value.1 == url[..i] + chargeId + url[i + |CHARGE_ID_PLACEHOLDER|..];
    assert i == |pre|;
    assert url[..i] == pre;
    assert url[i + |CHARGE_ID_PLACEHOLDER|..] == post;
  }

  /** The message handlePayment's catch shows: `error.message || "Payment failed. Please try again."`. */
  function CaughtMessage(message: string): string {
    if message != "" then message else PAYMENT_FAILED
  }

  /** handlePayment's catch: show the message and take the button out of its loading state. */
  function Caught(u: Ui, message: string): Ui {
    u.(error := Some(CaughtMessage(message)), payButtonEnabled := true, loading := false)
  }

  /**
   * handlePayment with handleRedirectFlow, given the idempotency key it generated
   * and the create reply.
   */
  function Pay(p: PageState, key: string, reply: CreateReply): PageState {
    var cleared := p.ui.(error := None, status := None);
    if !Truthy(p.state.selectedMethod) then p.(ui := cleared.(error := Some(NO_METHOD_ERROR)))
    else
      var busy := cleared.(payButtonEnabled := false, loading := true);
      match reply
      case CreateThrew(m) => p.(ui := Caught(busy, m))
      case CreateJson(success, error, chargeId, methodName, requestUrl, redirectUrl) =>
        if !success then p.(ui := Caught(busy, OrElse(error, CREATE_FAILED)))
        else
          var stored := p.(state := p.state.(currentChargeId := chargeId),
                           session := p.session[PENDING_CHARGE_KEY := ShowUndefined(chargeId)][IDEMPOTENCY_KEY := key]);
          match RedirectChoice(requestUrl, redirectUrl, chargeId, methodName)
          case Ok((line, target)) => stored.(ui := busy.(status := Some(line), navigation := Some(target)))
          case Err(m) => stored.(ui := Caught(busy, m))
  }

  /** Paying with no selected method shows the error, sends nothing and changes nothing else. */
  lemma PayWithoutMethod(p: PageState, key: string, reply: CreateReply)
    requires !Truthy(p.state.selectedMethod)
    ensures Pay(p, key, reply) == p.(ui := p.ui.(error := Some(NO_METHOD_ERROR), status := None))
    ensures PayRequest(p.state, key).None?
  {
  }

  /**
   * The outcomes of paying with a selected method: a request that throws shows
   * its message or "Payment failed. Please try again." and re-enables the button;
   * a reply that is not a success shows `data.error` or "Failed to create payment"
   * and re-enables the button; a success stores the charge id and the key in
   * sessionStorage and either shows the redirect line and schedules the redirect
   * with the button still disabled or, with no URL, shows "No redirect URL received".
   */
  lemma PayOutcomes(p: PageState, key: string, reply: CreateReply)
    requires Truthy(p.state.selectedMethod)
    ensures var r := Pay(p, key, reply);
      && r.radios == p.radios
      && r.state.(currentChargeId := p.state.currentChargeId) == p.state
      && r.ui.recurringShown == p.ui.recurringShown
      && (reply.CreateThrew? ==>
            r.ui.error == Some(if reply.message != "" then reply.message else PAYMENT_FAILED)
            && r.ui.payButtonEnabled && !r.ui.loading
            && r.session == p.session && r.ui.navigation == p.ui.navigation)
      && (reply.CreateJson? && !reply.success ==>
            r.ui.error == Some(OrElse(reply.error, CREATE_FAILED)) && r.ui.payButtonEnabled && !r.ui.loading
            && r.session == p.session && r.ui.navigation == p.ui.navigation)
      && (reply.CreateJson? && reply.success ==>
            && r.session == p.session[PENDING_CHARGE_KEY := ShowUndefined(reply.chargeId)][IDEMPOTENCY_KEY := key]
            && r.state.currentChargeId == reply.chargeId
            && (Truthy(reply.requestUrl) || Truthy(reply.redirectUrl) ==>
                  r.ui.loading && r.ui.error.None? && !r.ui.payButtonEnabled
                  && r.ui.status == Some(RedirectChoice(reply.requestUrl, reply.redirectUrl, reply.chargeId,
                                                        reply.methodName).value.0)
                  && r.ui.navigation == Some(RedirectChoice(reply.requestUrl, reply.redirectUrl, reply.chargeId,
                                                            reply.methodName).value.1))
            && (!Truthy(reply.requestUrl) && !Truthy(reply.redirectUrl) ==>
                  r.ui.error == Some(NO_REDIRECT) && !r.ui.loading && r.ui.navigation == p.ui.navigation))
      && (!r.ui.loading ==> r.ui.payButtonEnabled)
  {
    if reply.CreateJson? && !reply.success {
      assert OrElse(reply.error, CREATE_FAILED) != "";
    }
  }

  // ---------------------------------------------------------------------------
  // The status check after returning from the gateway
  // ---------------------------------------------------------------------------

  /** The branch of the `switch` in checkPaymentStatusById. */
  datatype StatusCase = Paid | Processing | Declined | OtherStatus

  /** `switch (status.toLowerCase())`: exact matches only. */
  function StatusSwitch(status: string): (c: StatusCase)
    ensures c == Paid <==> ToLower(status) == "successful" || ToLower(status) == "success"
    ensures c == Processing <==> ToLower(status) == "pending" || ToLower(status) == "processing"
    ensures c == Declined <==> ToLower(status) == "failed" || ToLower(status) == "error"
  {
    match ToLower(status)
    case "successful" => Paid
    case "success" => Paid
    case "pending" => Processing
    case "processing" => Processing
    case "failed" => Declined
    case "error" => Declined
    case _ => OtherStatus
  }

  /** The matching is exact: a status that merely contains "success" is not a success. */
  lemma SwitchIsExact()
    ensures StatusSwitch("payment success") == OtherStatus
    ensures StatusSwitch("SUCCESS") == Paid
  {
    assert ToLower("SUCCESS") == "success";
    assert ToLower("payment success") == "payment success";
  }

  /** The reply of the status request, or a fetch or JSON decoding that threw. */
  datatype StatusReply = StatusThrew | StatusJson(ok: bool, status: Option<string>)

  /**
   * checkPaymentStatusById: the status line and whether a recheck is scheduled, or
   * Err when it throws (a failed fetch, a reply that is not ok, a missing status).
   */
  function CheckById(reply: StatusReply): (r: Result<(string, bool)>)
    ensures r.Ok? <==> reply.StatusJson? && reply.ok && reply.status.Some?
    ensures r.Ok? ==> (r.value.1 <==> StatusSwitch(reply.status.value) == Processing)
    ensures r.Ok? && StatusSwitch(reply.status.value) == Paid ==> r.value.0 == PAID
    ensures r.Ok? && StatusSwitch(reply.status.value) == Processing ==> r.value.0 == PROCESSING
    ensures r.Ok? && StatusSwitch(reply.status.value) == Declined ==> r.value.0 == DECLINED
    ensures r.Ok? && StatusSwitch(reply.status.value) == OtherStatus ==>
      r.value.0 == "Payment status: " + reply.status.value
  {
    match reply
    case StatusThrew => Err("fetch")
    case StatusJson(ok, status) =>
      if !ok then Err("Failed to get payment status")
      else if status.None? then Err("Cannot read properties of undefined (reading 'toLowerCase')")
      else match StatusSwitch(status.value)
        case Paid => Ok((PAID, false))
        case Processing => Ok((PROCESSING, true))
        case Declined => Ok((DECLINED, false))
        case OtherStatus => Ok(("Payment status: " + status.value, false))
  }

  /** sessionStorage.getItem. */
  function SessionItem(session: map<string, string>, key: string): Option<string> {
    if key in session then Some(session[key]) else None
  }

  /** checkPaymentStatus on load, with the URL's `status` and the status reply. */
  function CheckOnLoad(p: PageState, urlStatus: Option<string>, reply: StatusReply): PageState {
    var chargeId := SessionItem(p.session, PENDING_CHARGE_KEY);
    if !(Truthy(chargeId) && Truthy(urlStatus)) then p
    else
      var verifying := p.ui.(status := Some(VERIFYING));
      match CheckById(reply)
      case Err(_) => p.(ui := verifying.(error := Some(VERIFY_FAILED)))
      case Ok((line, recheck)) =>
        p.(ui := verifying.(status := Some(line), recheckScheduled := recheck, urlCleaned := true),
           session := p.session - {PENDING_CHARGE_KEY, IDEMPOTENCY_KEY})
  }

  /**
   * The status is checked only with both a pending charge id and a URL status;
   * a check that completes shows its branch's line, schedules the recheck while
   * processing, cleans the URL and removes both session keys and nothing else;
   * one that throws keeps them, leaves "Verifying payment..." and shows
   * "Failed to verify payment status".
   */
  lemma CheckOnLoadOutcomes(p: PageState, urlStatus: Option<string>, reply: StatusReply)
    ensures var r := CheckOnLoad(p, urlStatus, reply);
      && (!(Truthy(SessionItem(p.session, PENDING_CHARGE_KEY)) && Truthy(urlStatus)) ==> r == p)
      && (Truthy(SessionItem(p.session, PENDING_CHARGE_KEY)) && Truthy(urlStatus) ==>
            && (CheckById(reply).Ok? ==>
                  && PENDING_CHARGE_KEY !in r.session && IDEMPOTENCY_KEY !in r.session
                  && (forall k :: k in p.session && k != PENDING_CHARGE_KEY && k != IDEMPOTENCY_KEY
                                  ==> k in r.session && r.session[k] == p.session[k])
                  && r.ui == p.ui.(status := Some(CheckById(reply).value.0),
                                   recheckScheduled := CheckById(reply).value.1, urlCleaned := true))
            && (CheckById(reply).Err? ==>
                  r.session == p.session && r.ui == p.ui.(status := Some(VERIFYING), error := Some(VERIFY_FAILED))))
      && r.radios == p.radios && r.state == p.state
  {
  }

  /**
   * A scheduled recheck firing: a completed check replaces the status line and
   * schedules the next recheck only while processing; a throw ends the rechecks
   * silently, showing nothing. Nothing else on the page changes.
   */
  function Recheck(p: PageState, reply: StatusReply): (r: PageState)
    ensures !(reply.StatusJson? && reply.ok && reply.status.Some?) ==>
      r == p.(ui := p.ui.(recheckScheduled := false))
    ensures reply.StatusJson? && reply.ok && reply.status.Some? ==>
      && r == p.(ui := p.ui.(status := r.ui.status, recheckScheduled := r.ui.recheckScheduled))
      && r.ui.status == Some(CheckById(reply).value.0)
      && (r.ui.recheckScheduled <==> StatusSwitch(reply.status.value) == Processing)
  {
    match CheckById(reply)
    case Err(_) => p.(ui := p.ui.(recheckScheduled := false))
    case Ok((line, recheck)) => p.(ui := p.ui.(status := Some(line), recheckScheduled := recheck))
  }

  // ---------------------------------------------------------------------------
  // The invariant
  // ---------------------------------------------------------------------------

  /** The markup the page starts from has no radio checked, so the page starts consistent. */
  lemma InitialConsistent(markup: seq<Radio>, session: map<string, string>)
    requires forall i :: 0 <= i < |markup| ==> !markup[i].checked
    ensures Consistent(InitialPage(markup, session))
  {
  }

  /** The pay button is enabled exactly when a method is selected. */
  lemma PayButtonFacts(p: PageState)
    ensures var r := PayButton(p);
      && (r.ui.payButtonEnabled <==> Truthy(p.state.selectedMethod))
      && r.ui.(payButtonEnabled := p.ui.payButtonEnabled, payButtonText := p.ui.payButtonText) == p.ui
      && r.radios == p.radios && r.state == p.state && r.session == p.session
  {
  }

  /**
   * After updatePaymentMethodAvailability a radio is disabled exactly when it names
   * another currency, it stays checked exactly when it was checked and is allowed,
   * and the selection is cleared exactly when a checked radio was ruled out.
   */
  lemma AvailabilityFacts(p: PageState)
    ensures var r := UpdateAvailability(p);
      && |r.radios| == |p.radios|
      && (forall i :: 0 <= i < |r.radios| ==>
            && r.radios[i].value == p.radios[i].value
            && (r.radios[i].disabled <==> !Allowed(p.radios[i], p.state.selectedCurrency))
            && (r.radios[i].checked <==> p.radios[i].checked && Allowed(p.radios[i], p.state.selectedCurrency)))
      && r.state.selectedMethod ==
           (if ClearsWithin(p.radios, p.state.selectedCurrency, |p.radios|) then None else p.state.selectedMethod)
      && r.state.(selectedMethod := p.state.selectedMethod) == p.state
      && (r.ui.payButtonEnabled <==> Truthy(r.state.selectedMethod))
      && r.ui.recurringShown == p.ui.recurringShown && r.ui.loading == p.ui.loading
  {
  }

  /** updatePaymentMethodAvailability keeps the page consistent. */
  lemma {:induction false} AvailabilityKeepsConsistent(p: PageState)
    requires Consistent(p)
    ensures Consistent(UpdateAvailability(p))
  {
    var r := UpdateAvailability(p);
    AvailabilityFacts(p);
    if ClearsWithin(p.radios, p.state.selectedCurrency, |p.radios|) {
      var j :| 0 <= j < |p.radios| && p.radios[j].checked && !Allowed(p.radios[j], p.state.selectedCurrency);
      forall i | 0 <= i < |r.radios|
        ensures !r.radios[i].checked
      {
        if p.radios[i].checked { assert i == j; }
      }
    } else if p.state.selectedMethod.Some? {
      var i :| 0 <= i < |p.radios| && p.radios[i].checked && p.radios[i].value == p.state.selectedMethod.value;
      assert r.radios[i].checked;
    }
  }

  /** Changing the currency keeps the page consistent. */
  lemma ChangeCurrencyKeepsConsistent(p: PageState, currency: string)
    requires Consistent(p)
    ensures Consistent(ChangeCurrency(p, currency))
  {
    var p' := p.(state := p.state.(selectedCurrency := currency));
    AvailabilityKeepsConsistent(p');
    PayButtonFacts(UpdateAvailability(p'));
  }

  /**
   * Selecting an enabled radio selects its value; any method other than iDEAL
   * switches recurring off, iDEAL leaves it as it was; the page stays consistent.
   */
  lemma SelectMethodFacts(p: PageState, i: int)
    requires Consistent(p) && 0 <= i < |p.radios| && !p.radios[i].disabled
    ensures var r := SelectMethod(p, i);
      && Consistent(r)
      && r.state.selectedMethod == Some(p.radios[i].value)
      && (p.radios[i].value != IDEAL ==> !r.state.recurringEnabled && !r.ui.recurringShown)
      && (p.radios[i].value == IDEAL ==> r.state.recurringEnabled == p.state.recurringEnabled && r.ui.recurringShown)
  {
    var rs := CheckOnly(p.radios, i);
    assert rs[i].checked && rs[i].value == p.radios[i].value;
    assert forall j :: 0 <= j < |rs| && rs[j].checked ==> j == i;
    assert forall j :: 0 <= j < |rs| ==> rs[j].disabled == p.radios[j].disabled;
    var picked := p.(radios := rs, state := p.state.(selectedMethod := Some(p.radios[i].value)));
    PayButtonFacts(RecurringOption(picked));
  }

  /** Toggling the recurring checkbox, which is only reachable while it is shown, keeps the page consistent. */
  lemma ToggleKeepsConsistent(p: PageState, checked: bool)
    requires Consistent(p) && p.ui.recurringShown
    ensures Consistent(ToggleRecurring(p, checked))
  {
  }

  /** Paying keeps the page consistent. */
  lemma PayKeepsConsistent(p: PageState, key: string, reply: CreateReply)
    requires Consistent(p)
    ensures Consistent(Pay(p, key, reply))
  {
    if Truthy(p.state.selectedMethod) {
      PayOutcomes(p, key, reply);
    }
  }

  /** The status check on load and its rechecks keep the page consistent. */
  lemma StatusCheckKeepsConsistent(p: PageState, urlStatus: Option<string>, reply: StatusReply)
    requires Consistent(p)
    ensures Consistent(CheckOnLoad(p, urlStatus, reply))
    ensures Consistent(Recheck(p, reply))
  {
    CheckOnLoadOutcomes(p, urlStatus, reply);
  }

  // ---------------------------------------------------------------------------
  // The page object
  // ---------------------------------------------------------------------------

  /** The checkout page: the fields of the `state` object, the radios and what the page shows, updated in place. */
  class CheckoutPage {
    /** The `.payment-method` entries, in document order. */
    var radios: seq<Radio>
    var selectedMethod: Option<string>
    var selectedCurrency: string
    var recurringEnabled: bool
    var currentChargeId: Option<string>
    var ui: Ui
    var session: map<string, string>

    function Snapshot(): PageState
      reads this
    {
      PageState(radios, AppState(selectedMethod, selectedCurrency, recurringEnabled, currentChargeId), ui, session)
    }

    constructor(markup: seq<Radio>, storage: map<string, string>)
      ensures Snapshot() == InitialPage(markup, storage)
    {
      radios := markup;
      selectedMethod, selectedCurrency, recurringEnabled, currentChargeId := None, "EUR", false, None;
      ui := Ui(false, false, false, SELECT_TEXT, false, None, None, None, false, false);
      session := storage;
    }

    /** updatePayButton. */
    method UpdatePayButton()
      modifies this
      ensures Snapshot() == PayButton(old(Snapshot()))
    {
      if Truthy(selectedMethod) {
        ui := ui.(payButtonEnabled := true, payButtonText := PAY_TEXT);
      } else {
        ui := ui.(payButtonEnabled := false, payButtonText := SELECT_TEXT);
      }
    }

    /** updatePaymentMethodAvailability: one pass over the radios, clearing the selection as it goes. */
    method UpdatePaymentMethodAvailability()
      modifies this
      ensures Snapshot() == UpdateAvailability(old(Snapshot()))
    {
      ghost var before := Snapshot();
      var i := 0;
      while i < |radios|
        invariant 0 <= i <= |radios| == |before.radios|
        invariant forall j :: 0 <= j < i ==> radios[j] == Availability(before.radios[j], selectedCurrency)
        invariant forall j :: i <= j < |radios| ==> radios[j] == before.radios[j]
        invariant selectedMethod ==
          if ClearsWithin(before.radios, selectedCurrency, i) then None else before.state.selectedMethod
        invariant Snapshot().(radios := before.radios, state := Snapshot().state.(selectedMethod := before.state.selectedMethod)) == before
      {
        var r := radios[i];
        if Truthy(r.allowedCurrency) && r.allowedCurrency.value != selectedCurrency {
          radios := radios[i := r.(disabled := true)];
          if r.checked {
            radios := radios[i := radios[i].(checked := false)];
            selectedMethod := None;
          }
        } else {
          radios := radios[i := r.(disabled := false)];
        }
        i := i + 1;
      }
      assert radios == AvailableRadios(before.radios, selectedCurrency);
      UpdatePayButton();
    }

    /** updateRecurringOption. */
    method UpdateRecurringOption()
      modifies this
      ensures Snapshot() == RecurringOption(old(Snapshot()))
    {
      if selectedMethod == Some(IDEAL) {
        ui := ui.(recurringShown := true);
      } else {
        ui := ui.(recurringShown := false);
        recurringEnabled := false;
        ui := ui.(recurringChecked := false);
      }
    }

    /** The currency select's change handler. */
    method OnCurrencyChange(currency: string)
      modifies this
      ensures Snapshot() == ChangeCurrency(old(Snapshot()), currency)
    {
      selectedCurrency := currency;
      UpdatePaymentMethodAvailability();
      UpdatePayButton();
    }

    /** A radio's change handler; the browser has just checked radio `i` and unchecked the rest of the group. */
    method OnMethodChange(i: int)
      requires 0 <= i < |radios|
      modifies this
      ensures Snapshot() == SelectMethod(old(Snapshot()), i)
    {
      radios := CheckOnly(radios, i);
      selectedMethod := Some(radios[i].value);
      UpdateRecurringOption();
      UpdatePayButton();
    }

    /** The recurring checkbox's change handler. */
    method OnRecurringToggle(checked: bool)
      modifies this
      ensures Snapshot() == ToggleRecurring(old(Snapshot()), checked)
    {
      recurringEnabled := checked;
      ui := ui.(recurringChecked := checked);
    }

    /** handlePayment: the request it sends (if any), given the key it generated and the create reply. */
    method HandlePayment(key: string, reply: CreateReply) returns (sent: Option<PaymentRequest>)
      modifies this
      ensures sent == PayRequest(old(Snapshot()).state, key)
      ensures Snapshot() == Pay(old(Snapshot()), key, reply)
    {
      ui := ui.(error := None, status := None);
      if !Truthy(selectedMethod) {
        ui := ui.(error := Some(NO_METHOD_ERROR));
        return None;
      }
      ui := ui.(payButtonEnabled := false, loading := true);
      sent := Some(PaymentRequest(selectedMethod.value, selectedCurrency, AMOUNT_CENTS, recurringEnabled, key));
      match reply
      case CreateThrew(m) =>
        ui := Caught(ui, m);
      case CreateJson(success, err, chargeId, methodName, requestUrl, redirectUrl) =>
        if !success {
          ui := Caught(ui, OrElse(err, CREATE_FAILED));
        } else {
          currentChargeId := chargeId;
          session := session[PENDING_CHARGE_KEY := ShowUndefined(chargeId)];
          session := session[IDEMPOTENCY_KEY := key];
          var choice := RedirectChoice(requestUrl, redirectUrl, chargeId, methodName);
          if choice.Ok? {
            ui := ui.(status := Some(choice.value.0), navigation := Some(choice.value.1));
          } else {
            ui := Caught(ui, choice.error);
          }
        }
    }

    /** checkPaymentStatus, run on load with the URL's `status` and the status reply. */
    method CheckPaymentStatus(urlStatus: Option<string>, reply: StatusReply)
      modifies this
      ensures Snapshot() == CheckOnLoad(old(Snapshot()), urlStatus, reply)
    {
      var chargeId := SessionItem(session, PENDING_CHARGE_KEY);
      if Truthy(chargeId) && Truthy(urlStatus) {
        ui := ui.(status := Some(VERIFYING));
        var checked := CheckById(reply);
        if checked.Ok? {
          ui := ui.(status := Some(checked.value.0), recheckScheduled := checked.value.1);
          session := session - {PENDING_CHARGE_KEY, IDEMPOTENCY_KEY};
          ui := ui.(urlCleaned := true);
        } else {
          ui := ui.(error := Some(VERIFY_FAILED));
        }
      }
    }

    /** The DOMContentLoaded handler: availability first, then the status check. */
    method Load(urlStatus: Option<string>, reply: StatusReply)
      modifies this
      ensures Snapshot() == CheckOnLoad(UpdateAvailability(old(Snapshot())), urlStatus, reply)
    {
      UpdatePaymentMethodAvailability();
      CheckPaymentStatus(urlStatus, reply);
    }

    /** A scheduled recheck firing. */
    method RecheckStatus(reply: StatusReply)
      modifies this
      ensures Snapshot() == Recheck(old(Snapshot()), reply)
    {
      var checked := CheckById(reply);
      if checked.Ok? {
        ui := ui.(status := Some(checked.value.0), recheckScheduled := checked.value.1);
      } else {
        ui := ui.(recheckScheduled := false);
      }
    }
  }
}

=== FILE: js_text.dfy ===
/**
 * The JavaScript string and value operations the checkout code relies on:
 * truthiness of optional strings, `toLowerCase`, `includes`/`indexOf`,
 * `replace` with a string pattern, `String(n)` for integers and `padStart(2, "0")`.
 */
module JsText {
  import opened Wrappers

  // ---------------------------------------------------------------------------
  // Values
  // ---------------------------------------------------------------------------

  /** A JSON scalar as it arrives in a decoded reply. */
  datatype Json = JStr(str: string) | JNum(num: int) | JBool(b: bool) | JNull

  /** A decoded JSON object; a key whose value was `undefined` is simply absent. */
  type JsonObject = map<string, Json>

  /** `if (s)` for a value that is a string or missing: only a non-empty string is truthy. */
  predicate Truthy(s: Option<string>) {
    s.Some? && s.value != ""
  }

  /** `if (v)` for an optional JSON value. */
  predicate JsonTruthy(v: Option<Json>) {
    match v
    case None => false
    case Some(JStr(s)) => s != ""
    case Some(JNum(n)) => n != 0
    case Some(JBool(b)) => b
    case Some(JNull) => false
  }

  /** The value of key `k` in a decoded object, `undefined` when absent. */
  function Get(o: JsonObject, k: string): Option<Json> {
    if k in o then Some(o[k]) else None
  }

  /** `a || b` for two optional strings. */
  function Or(a: Option<string>, b: Option<string>): (r: Option<string>)
    ensures Truthy(r) <==> Truthy(a) || Truthy(b)
    ensures Truthy(r) && Truthy(a) ==> r == a
  {
    if Truthy(a) then a else b
  }

  /** `a || d` where the default `d` is a literal string. */
  function OrElse(a: Option<string>, d: string): string {
    if Truthy(a) then a.value else d
  }

  /** A value interpolated into a template literal: a missing value prints as `undefined`. */
  function ShowUndefined(s: Option<string>): string {
    s.GetOr("undefined")
  }

  /** A value interpolated into a template literal: a missing `URLSearchParams` entry prints as `null`. */
  function ShowNull(s: Option<string>): string {
    s.GetOr("null")
  }

  // ---------------------------------------------------------------------------
  // Case
  // ---------------------------------------------------------------------------

  predicate IsUpper(c: char) {
    'A' <= c <= 'Z'
  }

  function LowerChar(c: char): char {
    if IsUpper(c) then (c as int + 32) as char else c
  }

  /** `s.toLowerCase()`, on the ASCII letters. */
  function ToLower(s: string): (r: string)
    ensures |r| == |s|
    ensures forall i :: 0 <= i < |s| ==> r[i] == LowerChar(s[i])
  {
    seq(|s|, i requires 0 <= i < |s| => LowerChar(s[i]))
  }

  /** No ASCII capital letter occurs in `s`. */
  predicate IsLower(s: string) {
    forall i :: 0 <= i < |s| ==> !IsUpper(s[i])
  }

  /** Lower-casing a string that has no capitals changes nothing. */
  lemma LowerIsFixed(s: string)
    requires IsLower(s)
    ensures ToLower(s) == s
  {
  }

  /** Lower-casing is idempotent. */
  lemma ToLowerIdempotent(s: string)
    ensures ToLower(ToLower(s)) == ToLower(s)
  {
    LowerIsFixed(ToLower(s));
  }

  // ---------------------------------------------------------------------------
  // Substrings
  // ---------------------------------------------------------------------------

  /** `sub` occurs in `s` starting at index `i`. */
  predicate MatchAt(s: string, sub: string, i: nat) {
    i + |sub| <= |s| && s[i..i + |sub|] == sub
  }

  /** `s.indexOf(sub, from)`: the first index at or after `from` where `sub` occurs, or -1. */
  function IndexOfFrom(s: string, sub: string, from: nat): (r: int)
    decreases |s| - from
    ensures r == -1 || (from <= r && MatchAt(s, sub, r))
    ensures forall i: nat :: from <= i && (r == -1 || i < r) ==> !MatchAt(s, sub, i)
  {
    if |s| < from + |sub| then -1
    else if MatchAt(s, sub, from) then from
    else IndexOfFrom(s, sub, from + 1)
  }

  /** `s.indexOf(sub)`. */
  function IndexOf(s: string, sub: string): int {
    IndexOfFrom(s, sub, 0)
  }

  /** `s.includes(sub)`. */
  predicate Includes(s: string, sub: string) {
    IndexOf(s, sub) >= 0
  }

  /** `includes` holds exactly when some occurrence exists. */
  lemma IncludesIff(s: string, sub: string)
    ensures Includes(s, sub) <==> exists i: nat :: MatchAt(s, sub, i)
  {
    if Includes(s, sub) {
      assert MatchAt(s, sub, IndexOf(s, sub) as nat);
    }
  }

  /** A string contains any string it starts with. */
  lemma IncludesPrefix(s: string, sub: string)
    requires |sub| <= |s| && s[..|sub|] == sub
    ensures Includes(s, sub)
  {
    assert MatchAt(s, sub, 0);
    IncludesIff(s, sub);
  }

  /** A string of the same length as `sub` contains it only by being equal to it. */
  lemma IncludesSameLength(s: string, sub: string)
    requires |s| == |sub|
    ensures Includes(s, sub) <==> s == sub
  {
    IncludesIff(s, sub);
    if s == sub {
      assert MatchAt(s, sub, 0);
    }
  }

  /** A string shorter than `sub` cannot contain it. */
  lemma IncludesTooShort(s: string, sub: string)
    requires |s| < |sub|
    ensures !Includes(s, sub)
  {
    IncludesIff(s, sub);
  }

  /** `s.replace(pat, rep)` with a string pattern: the first occurrence of `pat`, if any, becomes `rep`. */
  function ReplaceFirst(s: string, pat: string, rep: string): (r: string)
    ensures !Includes(s, pat) ==> r == s
    ensures Includes(s, pat) ==>
      exists i: nat ::
        && MatchAt(s, pat, i)
        && (forall j: nat :: j < i ==> !MatchAt(s, pat, j))
        && r == s[..i] + rep + s[i + |pat|..]
  {
    var i := IndexOf(s, pat);
    if i < 0 then s
    else
      assert MatchAt(s, pat, i as nat);
      s[..i] + rep + s[i + |pat|..]
  }

  // ---------------------------------------------------------------------------
  // Numbers as text
  // ---------------------------------------------------------------------------

  predicate IsDigit(c: char) {
    '0' <= c <= '9'
  }

  function DigitChar(d: nat): (c: char)
    requires d < 10
    ensures IsDigit(c)
  {
    ('0' as int + d) as char
  }

  function DigitValue(c: char): int {
    c as int - '0' as int
  }

  /** `String(n)` for a non-negative integer: its decimal digits, most significant first. */
  function NatToString(n: nat): (r: string)
    ensures |r| >= 1
    ensures forall i :: 0 <= i < |r| ==> IsDigit(r[i])
  {
    if n < 10 then [DigitChar(n)] else NatToString(n / 10) + [DigitChar(n % 10)]
  }

  /** `String(n)` for any integer. */
  function IntToString(n: int): string {
    if n < 0 then "-" + NatToString(-n) else NatToString(n)
  }

  /** `s.padStart(2, "0")`. */
  function PadStart2(s: string): string {
    if |s| == 0 then "00" else if |s| == 1 then "0" + s else s
  }

  /** `padStart(2, "0")` prepends zeros up to length 2 and keeps `s` as the tail. */
  lemma PadStart2Facts(s: string)
    ensures var r := PadStart2(s);
      && |r| == (if |s| < 2 then 2 else |s|)
      && r[|r| - |s|..] == s
      && (forall i :: 0 <= i < |r| - |s| ==> r[i] == '0')
  {
  }

  /** The number a string of decimal digits denotes (the inverse of NatToString). */
  function ParseNat(s: string): int {
    if s == [] then 0 else ParseNat(s[..|s| - 1]) * 10 + DigitValue(s[|s| - 1])
  }

  /** Reading back the decimal digits of `n` gives `n`. */
  lemma {:induction false} ParseNatToString(n: nat)
    ensures ParseNat(NatToString(n)) == n
  {
    var s := NatToString(n);
    if n >= 10 {
      ParseNatToString(n / 10);
      assert s[..|s| - 1] == NatToString(n / 10);
    }
  }

  /** Leading zeros do not change the number a digit string denotes. */
  lemma {:induction false} ParseNatLeadingZero(s: string)
    ensures ParseNat("0" + s) == ParseNat(s)
  {
    if s != [] {
      assert ("0" + s)[..|"0" + s| - 1] == "0" + s[..|s| - 1];
      ParseNatLeadingZero(s[..|s| - 1]);
    }
  }
}

=== FILE: qr_page.dfy ===
/**
 * The QR payment page (generateQRCode.js): the page's `state` record, the 300 s
 * countdown shown as MM:SS, the bookkeeping of the two interval handles, and the
 * classification of each status poll. Interval handles are inputs (the values
 * `setInterval` returned); `live` is the set of intervals the browser still runs.
 * Each firing of an interval is an explicit method call.
 */
module QrPage {
  import opened Wrappers
  import opened JsText

  const QR_EXPIRY_TIME := 300

  /** A handle returned by `setInterval`: a positive integer, so always truthy. */
  type Handle = h: int | h > 0 witness 1

  // ---------------------------------------------------------------------------
  // The countdown text
  // ---------------------------------------------------------------------------

  /** JavaScript's `a % b` for a positive divisor: the remainder takes the sign of `a`. */
  function JsRem(a: int, b: int): int
    requires b > 0
  {
    if a >= 0 then a % b else -((-a) % b)
  }

  /** The timer text: `pad2(Math.floor(t / 60)) + ":" + pad2(t % 60)`. */
  function FormatClock(t: int): string {
    PadStart2(IntToString(t / 60)) + ":" + PadStart2(IntToString(JsRem(t, 60)))
  }

  /** Reads a timer text back: the minutes before the last three characters, the seconds after the colon. */
  function ParseClock(s: string): int {
    if |s| < 3 then 0 else ParseNat(s[..|s| - 3]) * 60 + ParseNat(s[|s| - 2..])
  }

  lemma {:induction false} ParseNatPadStart2(s: string)
    ensures ParseNat(PadStart2(s)) == ParseNat(s)
  {
    if |s| == 0 {
      assert PadStart2(s) == "0" + "0";
      ParseNatLeadingZero("0");
      assert "0"[..0] == "";
    } else if |s| == 1 {
      ParseNatLeadingZero(s);
    }
  }

  /** The padded decimal text of `n`: all digits, two of them below 100, reading back as `n`. */
  lemma {:induction false} PaddedDigits(n: nat)
    ensures var p := PadStart2(NatToString(n));
      && |p| >= 2 && (n < 100 ==> |p| == 2)
      && (forall i :: 0 <= i < |p| ==> IsDigit(p[i]))
      && ParseNat(p) == n
  {
    var d := NatToString(n);
    var p := PadStart2(d);
    if n >= 10 && n < 100 {
      assert d == NatToString(n / 10) + [DigitChar(n % 10)];
    }
    forall i | 0 <= i < |p|
      ensures IsDigit(p[i])
    {
      if i >= |p| - |d| {
        assert p[i] == p[|p| - |d|..][i - (|p| - |d|)];
      }
    }
    ParseNatPadStart2(d);
    ParseNatToString(n);
  }

  /** The timer text of a time that is not negative, as its two padded parts. */
  lemma FormatClockParts(t: nat)
    ensures FormatClock(t) == PadStart2(NatToString(t / 60)) + ":" + PadStart2(NatToString(t % 60))
  {
    assert JsRem(t, 60) == t % 60;
  }

  /** A text made of two digit strings joined by a colon has the MM:SS shape and reads back part by part. */
  lemma ClockTextParts(mm: string, ss: string)
    requires |mm| >= 2 && |ss| == 2
    requires forall i :: 0 <= i < |mm| ==> IsDigit(mm[i])
    requires forall i :: 0 <= i < |ss| ==> IsDigit(ss[i])
    ensures var s := mm + ":" + ss;
      && |s| == |mm| + 3 && s[|s| - 3] == ':'
      && (forall i :: 0 <= i < |s| && i != |s| - 3 ==> IsDigit(s[i]))
      && ParseClock(s) == ParseNat(mm) * 60 + ParseNat(ss)
  {
    var s := mm + ":" + ss;
    assert s[..|s| - 3] == mm;
    assert s[|s| - 2..] == ss;
    forall i | 0 <= i < |s| && i != |s| - 3
      ensures IsDigit(s[i])
    {
      if i < |mm| { assert s[i] == mm[i]; } else { assert s[i] == ss[i - |mm| - 1]; }
    }
  }

  /**
   * For any time that is not negative, the text has the form MM:SS with at least
   * two minute digits and exactly two second digits, and it reads back as the time.
   */
  lemma FormatClockRoundTrip(t: nat)
    ensures var s := FormatClock(t);
      && |s| >= 5
      && s[|s| - 3] == ':'
      && (forall i :: 0 <= i < |s| && i != |s| - 3 ==> IsDigit(s[i]))
      && (t < 6000 ==> |s| == 5)
      && ParseClock(s) == t
  {
    var m, sec := t / 60, t % 60;
    PaddedDigits(m);
    PaddedDigits(sec);
    FormatClockParts(t);
    ClockTextParts(PadStart2(NatToString(m)), PadStart2(NatToString(sec)));
  }

  // ---------------------------------------------------------------------------
  // The page state
  // ---------------------------------------------------------------------------

  /** The URL parameters of the page; a missing one is None (null). */
  datatype QrQuery = QrQuery(
    orderId: Option<string>, chargeId: Option<string>, qrData: Option<string>,
    paymentMethod: Option<string>, amount: Option<string>, currency: Option<string>)

  /**
   * The page's `state` record together with what the model tracks of the browser:
   * the intervals still running, the timer text, the status message, whether the
   * "Check Status" button is shown, whether the cancel button has become
   * "Return to Checkout", and the navigation scheduled (if any).
   */
  datatype QrState = QrState(
    query: QrQuery,
    pollingInterval: Option<Handle>,
    timerInterval: Option<Handle>,
    remainingTime: int,
    live: set<Handle>,
    timerText: string,
    message: string,
    checkStatusShown: bool,
    returnsToCheckout: bool,
    navigation: Option<string>)

  /** The state before the page initialises. */
  function InitialState(): QrState {
    QrState(QrQuery(None, None, None, None, None, None), None, None, QR_EXPIRY_TIME, {}, "", "", false, false, None)
  }

  /**
   * What stays true as the page runs: a handle held in the state is a running
   * interval, the countdown lies in 0..300 and, while the timer runs, is positive.
   */
  predicate Inv(s: QrState) {
    && (s.pollingInterval.Some? ==> s.pollingInterval.value in s.live)
    && (s.timerInterval.Some? ==> s.timerInterval.value in s.live && s.remainingTime >= 1)
    && 0 <= s.remainingTime <= QR_EXPIRY_TIME
  }

  /** stopPolling: clear each interval the state holds and forget its handle. */
  function Stop(s: QrState): (r: QrState)
    ensures r.pollingInterval.None? && r.timerInterval.None?
    ensures r.live == s.live - (if s.pollingInterval.Some? then {s.pollingInterval.value} else {})
                             - (if s.timerInterval.Some? then {s.timerInterval.value} else {})
    ensures r == s.(pollingInterval := None, timerInterval := None, live := r.live)
    ensures Inv(s) ==> Inv(r)
  {
    var live1 := if s.pollingInterval.Some? then s.live - {s.pollingInterval.value} else s.live;
    var live2 := if s.timerInterval.Some? then live1 - {s.timerInterval.value} else live1;
    s.(pollingInterval := None, timerInterval := None, live := live2)
  }

  /** Stopping twice is stopping once. */
  lemma StopIdempotent(s: QrState)
    ensures Stop(Stop(s)) == Stop(s)
  {
  }

  const EXPIRED_MESSAGE := "QR code has expired. Please start a new payment."
  const WAITING_MESSAGE := "Waiting for payment confirmation..."
  const QR_FAILED_MESSAGE := "Failed to generate QR code"
  const INVALID_QR_MESSAGE := "Invalid QR code data. Please try again."
  const SUCCESS_MESSAGE := "✓ Payment successful! Redirecting..."
  const DECLINED_MESSAGE := "✗ Payment failed. Please try again."

  /**
   * The expiry branch of the countdown: clear the countdown, show EXPIRED and the
   * expiry message, stop both intervals, hide "Check Status" and turn the cancel
   * button into "Return to Checkout".
   */
  function Expire(s: QrState): (r: QrState)
    ensures r.pollingInterval.None? && r.timerInterval.None? && r.live == Stop(s).live
    ensures r.timerText == "EXPIRED" && r.message == EXPIRED_MESSAGE
    ensures !r.checkStatusShown && r.returnsToCheckout
    ensures r.remainingTime == s.remainingTime && r.query == s.query && r.navigation == s.navigation
  {
    var cleared := if s.timerInterval.Some? then s.live - {s.timerInterval.value} else s.live;
    Stop(s.(live := cleared, timerText := "EXPIRED", message := EXPIRED_MESSAGE))
      .(checkStatusShown := false, returnsToCheckout := true)
  }

  /** One firing of the countdown interval. */
  function Tick(s: QrState): (r: QrState)
    requires Inv(s) && s.timerInterval.Some?
    ensures Inv(r)
    ensures r.remainingTime == s.remainingTime - 1
    ensures r.timerInterval.Some? <==> r.remainingTime > 0
    // while time remains, the text shows it and nothing but the time and the text changes
    ensures r.remainingTime > 0 ==>
      r.timerText == FormatClock(r.remainingTime) && r == s.(remainingTime := r.remainingTime, timerText := r.timerText)
    // the last firing expires the page: EXPIRED, the expiry message, both intervals
    // stopped, "Check Status" hidden, "Return to Checkout", and nothing else changes
    ensures r.remainingTime <= 0 ==>
      && r.timerText == "EXPIRED" && r.message == EXPIRED_MESSAGE && r.returnsToCheckout
      && r.pollingInterval.None? && r.live == Stop(s).live && !r.checkStatusShown
      && r == s.(remainingTime := r.remainingTime, timerText := "EXPIRED", message := EXPIRED_MESSAGE,
                 checkStatusShown := false, returnsToCheckout := true, pollingInterval := None,
                 timerInterval := None, live := r.live)
  {
    var t := s.remainingTime - 1;
    var shown := s.(remainingTime := t, timerText := FormatClock(t));
    if t <= 0 then Expire(shown) else shown
  }

  /** `k` firings of the countdown in a row. */
  function Ticks(s: QrState, k: nat): (r: QrState)
    requires Inv(s) && s.timerInterval.Some? && k <= s.remainingTime
    ensures Inv(r)
    decreases k
  {
    if k == 0 then s
    else if k == 1 then Tick(s)
    else Ticks(Tick(s), k - 1)
  }

  /**
   * A running countdown at `n` seconds: after `k < n` firings the timer still runs
   * and, from the first firing on, shows `n - k`; after exactly `n` firings it
   * shows EXPIRED and both intervals are cleared.
   */
  lemma {:induction false} CountdownExpires(s: QrState, k: nat)
    requires Inv(s) && s.timerInterval.Some? && k <= s.remainingTime
    ensures Ticks(s, k).remainingTime == s.remainingTime - k
    ensures k < s.remainingTime ==>
      Ticks(s, k).timerInterval == s.timerInterval && Ticks(s, k).pollingInterval == s.pollingInterval
    ensures 0 < k < s.remainingTime ==> Ticks(s, k).timerText == FormatClock(s.remainingTime - k)
    ensures k == s.remainingTime ==>
      && Ticks(s, k).timerText == "EXPIRED"
      && Ticks(s, k).pollingInterval.None? && Ticks(s, k).timerInterval.None?
      && Ticks(s, k).live == Stop(s).live
    decreases k
  {
    if 0 < k < s.remainingTime {
      CountdownShowsTime(s, k);
    }
    if k > 1 {
      var s1 := Tick(s);
      if s1.remainingTime > 0 {
        CountdownExpires(s1, k - 1);
      }
    }
  }

  /** While the countdown runs, each firing's text shows the time left: after `k` firings, `n - k` as MM:SS. */
  lemma {:induction false} CountdownShowsTime(s: QrState, k: nat)
    requires Inv(s) && s.timerInterval.Some? && 0 < k < s.remainingTime
    ensures Ticks(s, k).timerText == FormatClock(s.remainingTime - k)
    ensures Ticks(s, k).remainingTime == s.remainingTime - k
    decreases k
  {
    if k > 1 {
      var s1 := Tick(s);
      assert s1.timerInterval.Some? && s1.remainingTime == s.remainingTime - 1;
      CountdownShowsTime(s1, k - 1);
    }
  }

  /** startTimer: a fresh interval becomes the countdown. */
  function StartTimer(s: QrState, h: Handle): QrState {
    s.(timerInterval := Some(h), live := s.live + {h})
  }

  /** startPolling: a fresh interval becomes the poller. */
  function StartPolling(s: QrState, h: Handle): QrState {
    s.(pollingInterval := Some(h), live := s.live + {h}, message := WAITING_MESSAGE)
  }

  /**
   * initialize: store the URL parameters; start the countdown and the poller only
   * when `qrData` is present and the QR code was drawn (`qrDrawn`, the result of
   * the external QR library call).
   */
  function Initialized(s: QrState, q: QrQuery, qrDrawn: bool, timerHandle: Handle, pollHandle: Handle): QrState {
    var stored := s.(query := q);
    if Truthy(q.qrData) then
      if qrDrawn then StartPolling(StartTimer(stored, timerHandle), pollHandle)
      else stored.(message := QR_FAILED_MESSAGE)
    else
      stored.(message := INVALID_QR_MESSAGE)
  }

  /**
   * Initialising a page whose intervals are not running keeps the invariant, and
   * starts both intervals, with the two fresh handles, exactly when `qrData` is
   * present and the QR code was drawn; otherwise no interval is started.
   */
  lemma InitializeStartsIntervals(s: QrState, q: QrQuery, qrDrawn: bool, timerHandle: Handle, pollHandle: Handle)
    requires Inv(s) && s.pollingInterval.None? && s.timerInterval.None? && s.remainingTime == QR_EXPIRY_TIME
    requires timerHandle != pollHandle && timerHandle !in s.live && pollHandle !in s.live
    ensures var r := Initialized(s, q, qrDrawn, timerHandle, pollHandle);
      && Inv(r) && r.query == q && r.remainingTime == QR_EXPIRY_TIME
      && (r.timerInterval.Some? <==> Truthy(q.qrData) && qrDrawn)
      && (r.pollingInterval.Some? <==> Truthy(q.qrData) && qrDrawn)
      && (r.timerInterval.Some? ==>
            r.timerInterval == Some(timerHandle) && r.pollingInterval == Some(pollHandle)
            && r.live == s.live + {timerHandle, pollHandle})
      && (r.timerInterval.None? ==> r.live == s.live)
  {
  }

  /** After initialisation the countdown takes exactly 300 firings to expire, and then stops polling too. */
  lemma ExpiresAfterFiveMinutes(q: QrQuery, timerHandle: Handle, pollHandle: Handle)
    requires timerHandle != pollHandle && Truthy(q.qrData)
    ensures
      var s := Initialized(InitialState(), q, true, timerHandle, pollHandle);
      && s.remainingTime == 300
      && Ticks(s, 299).pollingInterval == Some(pollHandle)
      && Ticks(s, 300).timerText == "EXPIRED"
      && Ticks(s, 300).pollingInterval.None? && Ticks(s, 300).timerInterval.None?
      && Ticks(s, 300).live == {}
  {
    InitializeStartsIntervals(InitialState(), q, true, timerHandle, pollHandle);
    var s := Initialized(InitialState(), q, true, timerHandle, pollHandle);
    CountdownExpires(s, 299);
    CountdownExpires(s, 300);
  }

  // ---------------------------------------------------------------------------
  // Status polls
  // ---------------------------------------------------------------------------

  /** The decoded reply of a status request, or a failed fetch. */
  datatype PollReply = PollFetchFailed | PollJson(body: JsonObject)

  /** What one poll does. */
  datatype PollVerdict =
    | NotFetched     // no charge id: returns at once
    | Continue       // polling goes on (includes every thrown and caught error)
    | Succeeded      // stop, announce success, redirect with status=success
    | Declined       // stop, announce failure, show "Check Status"

  /**
   * `(data.tatus || "").toLowerCase()`: the status is read from the field named
   * "tatus". A truthy value that is not a string has no toLowerCase and throws (None).
   */
  function PollStatusText(body: JsonObject): Option<string> {
    var v := Get(body, "tatus");
    if !JsonTruthy(v) then Some("")
    else match v.value
      case JStr(t) => Some(ToLower(t))
      case _ => None
  }

  /** The poll got a reply with a truthy `success` and a status text it can lower-case: nothing was thrown. */
  predicate StatusReadable(reply: PollReply) {
    reply.PollJson? && JsonTruthy(Get(reply.body, "success")) && PollStatusText(reply.body).Some?
  }

  /** pollPaymentStatus's decision, first match wins: success/captured, then failed/error/cancel. */
  function ClassifyPoll(chargeId: Option<string>, reply: PollReply): (v: PollVerdict)
    ensures v == NotFetched <==> !Truthy(chargeId)
    // a failed fetch, `success` falsy or a status that is not a string: the error is caught, polling goes on
    ensures Truthy(chargeId) && !StatusReadable(reply) ==> v == Continue
    ensures Truthy(chargeId) && StatusReadable(reply) ==>
      var t := PollStatusText(reply.body).value;
      && (v == Succeeded <==> Includes(t, "success") || Includes(t, "captured"))
      && (v == Declined <==> !Includes(t, "success") && !Includes(t, "captured") &&
                             (Includes(t, "failed") || Includes(t, "error") || Includes(t, "cancel")))
    ensures Truthy(chargeId) && reply.PollJson? && "tatus" !in reply.body ==> v == Continue
  {
    if !Truthy(chargeId) then NotFetched
    else match reply
      case PollFetchFailed => Continue
      case PollJson(body) =>
        if !JsonTruthy(Get(body, "success")) then Continue
        else match PollStatusText(body)
          case None => Continue
          case Some(t) =>
            if Includes(t, "success") || Includes(t, "captured") then Succeeded
            else if Includes(t, "failed") || Includes(t, "error") || Includes(t, "cancel") then Declined
            else Continue
  }

  /** The page a successful poll sends the shopper to. */
  function SuccessUrl(q: QrQuery): string {
    "/payment-return?orderId=" + ShowNull(q.orderId) + "&chargeId=" + ShowNull(q.chargeId)
    + "&status=success&method=" + ShowNull(q.paymentMethod)
  }

  /** The effect of one poll on the page. */
  function Poll(s: QrState, reply: PollReply): (r: QrState)
    ensures Inv(s) ==> Inv(r)
    ensures ClassifyPoll(s.query.chargeId, reply) in {NotFetched, Continue} ==> r == s
    ensures ClassifyPoll(s.query.chargeId, reply) in {Succeeded, Declined} ==>
      r.pollingInterval.None? && r.timerInterval.None? && r.live == Stop(s).live
    ensures ClassifyPoll(s.query.chargeId, reply) == Succeeded ==> r.navigation == Some(SuccessUrl(s.query))
    ensures ClassifyPoll(s.query.chargeId, reply) == Declined ==> r.checkStatusShown && r.navigation == s.navigation
    ensures ClassifyPoll(s.query.chargeId, reply) == Succeeded ==>
      r == Stop(s).(message := SUCCESS_MESSAGE, navigation := Some(SuccessUrl(s.query)))
    ensures ClassifyPoll(s.query.chargeId, reply) == Declined ==>
      r == Stop(s).(message := DECLINED_MESSAGE, checkStatusShown := true)
  {
    match ClassifyPoll(s.query.chargeId, reply)
    case Succeeded =>
      Stop(s).(message := SUCCESS_MESSAGE, navigation := Some(SuccessUrl(s.query)))
    case Declined =>
      Stop(s).(message := DECLINED_MESSAGE, checkStatusShown := true)
    case _ => s
  }

  /** The page the cancel button sends the shopper to once they confirm. */
  function CancelUrl(q: QrQuery): string {
    "/payment-return?orderId=" + ShowNull(q.orderId) + "&status=cancelled&method=" + ShowNull(q.paymentMethod)
  }

  /**
   * The cancel button: always stops both intervals; after expiry it returns to
   * checkout, otherwise it leaves for the return page only when the shopper confirms.
   */
  function Cancel(s: QrState, confirmed: bool): (r: QrState)
    ensures Inv(s) ==> Inv(r)
    ensures r.pollingInterval.None? && r.timerInterval.None? && r.live == Stop(s).live
    ensures r.navigation == (if s.returnsToCheckout then Some("/")
                             else if confirmed then Some(CancelUrl(s.query))
                             else s.navigation)
    ensures r == Stop(s).(navigation := r.navigation)
  {
    if s.returnsToCheckout then Stop(s).(navigation := Some("/"))
    else if confirmed then Stop(s).(navigation := Some(CancelUrl(s.query)))
    else Stop(s)
  }

  // ---------------------------------------------------------------------------
  // The page object
  // ---------------------------------------------------------------------------

  /** The QR page: the fields of its `state` record, updated in place by its handlers. */
  class QrCheckoutPage {
    /** orderId, chargeId, paymentMethod, amount, currency and qrData, as read from the URL. */
    var params: QrQuery
    var pollingInterval: Option<Handle>
    var timerInterval: Option<Handle>
    var remainingTime: int
    var live: set<Handle>
    var timerText: string
    var message: string
    var checkStatusShown: bool
    var returnsToCheckout: bool
    var navigation: Option<string>

    function Snapshot(): QrState
      reads this
    {
      QrState(params, pollingInterval, timerInterval, remainingTime, live, timerText, message, checkStatusShown, returnsToCheckout, navigation)
    }

    constructor()
      ensures Snapshot() == InitialState()
    {
      params := QrQuery(None, None, None, None, None, None);
      pollingInterval, timerInterval := None, None;
      remainingTime := QR_EXPIRY_TIME;
      live := {};
      timerText, message := "", "";
      checkStatusShown, returnsToCheckout := false, false;
      navigation := None;
    }

    /** stopPolling. */
    method StopPolling()
      modifies this
      ensures Snapshot() == Stop(old(Snapshot()))
    {
      if pollingInterval.Some? {
        live := live - {pollingInterval.value};
        pollingInterval := None;
      }
      if timerInterval.Some? {
        live := live - {timerInterval.value};
        timerInterval := None;
      }
    }

    /** The countdown interval firing. */
    method TimerTick()
      requires Inv(Snapshot()) && timerInterval.Some?
      modifies this
      ensures Snapshot() == Tick(old(Snapshot()))
    {
      var t := remainingTime - 1;
      remainingTime := t;
      timerText := FormatClock(t);
      if t <= 0 {
        ExpireTimer();
      }
    }

    /** The expiry branch of the countdown callback. */
    method ExpireTimer()
      modifies this
      ensures Snapshot() == Expire(old(Snapshot()))
    {
      if timerInterval.Some? {
        live := live - {timerInterval.value};
      }
      timerText := "EXPIRED";
      message := EXPIRED_MESSAGE;
      StopPolling();
      checkStatusShown := false;
      returnsToCheckout := true;
    }

    /** pollPaymentStatus, given the reply of the status request. */
    method PollPaymentStatus(reply: PollReply) returns (verdict: PollVerdict)
      modifies this
      ensures verdict == ClassifyPoll(old(params.chargeId), reply)
      ensures Snapshot() == Poll(old(Snapshot()), reply)
    {
      verdict := ClassifyPoll(params.chargeId, reply);
      if verdict == Succeeded {
        StopPolling();
        message := SUCCESS_MESSAGE;
        navigation := Some(SuccessUrl(params));
      } else if verdict == Declined {
        StopPolling();
        message := DECLINED_MESSAGE;
        checkStatusShown := true;
      }
    }

    /** The cancel button's click handler; `confirmed` is the shopper's answer to the confirmation dialog. */
    method CancelPayment(confirmed: bool)
      modifies this
      ensures Snapshot() == Cancel(old(Snapshot()), confirmed)
    {
      StopPolling();
      if returnsToCheckout {
        navigation := Some("/");
      } else if confirmed {
        navigation := Some(CancelUrl(params));
      }
    }

    /** initialize, on DOMContentLoaded. */
    method Initialize(q: QrQuery, qrDrawn: bool, timerHandle: Handle, pollHandle: Handle)
      modifies this
      ensures Snapshot() == Initialized(old(Snapshot()), q, qrDrawn, timerHandle, pollHandle)
    {
      params := q;
      if Truthy(q.qrData) {
        if qrDrawn {
          timerInterval := Some(timerHandle);
          live := live + {timerHandle};
          pollingInterval := Some(pollHandle);
          live := live + {pollHandle};
          message := WAITING_MESSAGE;
        } else {
          message := QR_FAILED_MESSAGE;
        }
      } else {
        message := INVALID_QR_MESSAGE;
      }
    }
  }
}

=== FILE: return_page.dfy ===
/**
 * The payment return page (paymentReturn.js): the priority-ordered, case-insensitive
 * classification of a status string, what `updateUI` writes for each category,
 * the charge id fallback, the status check against the API and the decision taken
 * when the page loads. URL parameters, sessionStorage and the API reply are inputs.
 * The page's elements are the fields of a class that `updateUI` and the retry
 * button write in place; a write a call does not make leaves what an earlier call
 * wrote, so an element once shown stays shown until something hides it.
 */
module ReturnPage {
  import opened Wrappers
  import opened JsText

  // ---------------------------------------------------------------------------
  // Classification
  // ---------------------------------------------------------------------------

  datatype Category = Success | Pending | Failed | Cancelled | Expired | Unknown

  /** `(status || "").toLowerCase()`. */
  function StatusText(status: Option<string>): string {
    ToLower(status.GetOr(""))
  }

  predicate SaysSuccess(t: string) { Includes(t, "success") || Includes(t, "captured") }
  predicate SaysPending(t: string) { Includes(t, "pending") || Includes(t, "processing") }
  predicate SaysFailed(t: string) { Includes(t, "failed") || Includes(t, "error") }

  /**
   * The if/else chain of updateUI: the first keyword group found in the
   * lower-cased status decides, in the order success, pending, failed, cancel, expired.
   */
  function Classify(status: Option<string>): (c: Category)
    ensures var t := StatusText(status);
      && (c == Success <==> SaysSuccess(t))
      && (c == Pending <==> !SaysSuccess(t) && SaysPending(t))
      && (c == Failed <==> !SaysSuccess(t) && !SaysPending(t) && SaysFailed(t))
      && (c == Cancelled <==> !SaysSuccess(t) && !SaysPending(t) && !SaysFailed(t) && Includes(t, "cancel"))
      && (c == Expired <==> !SaysSuccess(t) && !SaysPending(t) && !SaysFailed(t) && !Includes(t, "cancel")
                            && Includes(t, "expired"))
  {
    var t := StatusText(status);
    if SaysSuccess(t) then Success
    else if SaysPending(t) then Pending
    else if SaysFailed(t) then Failed
    else if Includes(t, "cancel") then Cancelled
    else if Includes(t, "expired") then Expired
    else Unknown
  }

  /** The keyword groups in priority order, as a table. */
  const RULES: seq<(seq<string>, Category)> := [
    (["success", "captured"], Success),
    (["pending", "processing"], Pending),
    (["failed", "error"], Failed),
    (["cancel"], Cancelled),
    (["expired"], Expired)]

  /** Some keyword of `keywords` occurs in `t`. */
  predicate AnyIncluded(t: string, keywords: seq<string>) {
    exists k :: 0 <= k < |keywords| && Includes(t, keywords[k])
  }

  /** The category of the first rule with a keyword in `t`; Unknown when none has. */
  function FirstMatchingRule(rules: seq<(seq<string>, Category)>, t: string): Category {
    if rules == [] then Unknown
    else if AnyIncluded(t, rules[0].0) then rules[0].1
    else FirstMatchingRule(rules[1..], t)
  }

  lemma AnyIncludedPair(t: string, a: string, b: string)
    ensures AnyIncluded(t, [a, b]) <==> Includes(t, a) || Includes(t, b)
  {
    var ks := [a, b];
    if Includes(t, a) { assert Includes(t, ks[0]); }
    if Includes(t, b) { assert Includes(t, ks[1]); }
  }

  lemma AnyIncludedSingle(t: string, a: string)
    ensures AnyIncluded(t, [a]) <==> Includes(t, a)
  {
    var ks := [a];
    if Includes(t, a) { assert Includes(t, ks[0]); }
  }

  /** The if/else chain is exactly "first matching rule of the table". */
  lemma ClassifyIsFirstMatchingRule(status: Option<string>)
    ensures Classify(status) == FirstMatchingRule(RULES, StatusText(status))
  {
    var t := StatusText(status);
    AnyIncludedPair(t, "success", "captured");
    AnyIncludedPair(t, "pending", "processing");
    AnyIncludedPair(t, "failed", "error");
    AnyIncludedSingle(t, "cancel");
    AnyIncludedSingle(t, "expired");
    var rest := RULES;
    assert FirstMatchingRule(rest, t) == if SaysSuccess(t) then Success else FirstMatchingRule(rest[1..], t);
    rest := rest[1..];
    assert FirstMatchingRule(rest, t) == if SaysPending(t) then Pending else FirstMatchingRule(rest[1..], t);
    rest := rest[1..];
    assert FirstMatchingRule(rest, t) == if SaysFailed(t) then Failed else FirstMatchingRule(rest[1..], t);
    rest := rest[1..];
    assert FirstMatchingRule(rest, t) == if Includes(t, "cancel") then Cancelled else FirstMatchingRule(rest[1..], t);
    rest := rest[1..];
    assert FirstMatchingRule(rest, t) == if Includes(t, "expired") then Expired else FirstMatchingRule(rest[1..], t);
    assert rest[1..] == [];
  }

  /** Classification ignores case. */
  lemma ClassifyIgnoresCase(s: string)
    ensures Classify(Some(ToLower(s))) == Classify(Some(s))
  {
    ToLowerIdempotent(s);
  }

  /** A missing or empty status is Unknown. */
  lemma MissingStatusIsUnknown()
    ensures Classify(None) == Unknown
    ensures Classify(Some("")) == Unknown
  {
    var t := StatusText(None);
    assert t == "";
    forall k: string | |k| > 0 ensures !Includes(t, k) {
      IncludesTooShort(t, k);
    }
    assert StatusText(Some("")) == "";
  }

  /** The status "Error" shown after a failed check is in the Failed category. */
  lemma ErrorStatusIsFailed()
    ensures Classify(Some("Error")) == Failed
  {
    var t := StatusText(Some("Error"));
    assert t == "error";
    IncludesTooShort(t, "success");
    IncludesTooShort(t, "captured");
    IncludesTooShort(t, "pending");
    IncludesTooShort(t, "processing");
    IncludesTooShort(t, "failed");
    IncludesSameLength(t, "error");
  }

  // ---------------------------------------------------------------------------
  // updateUI
  // ---------------------------------------------------------------------------

  /** The argument of updateUI; a `chargeId` that is None was not passed (undefined). */
  datatype StatusData = StatusData(
    status: Option<string>,
    chargeId: Option<string>,
    paymentMethod: Option<string>,
    error: Option<string>)

  /** The status icon, title and message. */
  datatype Heading = Heading(icon: string, title: string, message: string)

  /** The texts of the details block: status, charge id and payment method. */
  datatype Texts = Texts(statusText: string, chargeIdText: string, methodText: string)

  /**
   * What one call of updateUI writes: the category and its icon, title and message,
   * the three detail texts, and whether it shows the retry button, schedules the
   * 5 s recheck, shows error details (and which) and shows the info box. The call
   * never hides an element: a `false` here means "not written".
   */
  datatype View = View(
    category: Category,
    heading: Heading,
    texts: Texts,
    showsRetry: bool,
    schedulesRecheck: bool,
    errorDetails: Option<string>,
    showsInfoBox: bool)

  function Title(c: Category): string {
    match c
    case Success => "Payment Successful!"
    case Pending => "Payment Processing"
    case Failed => "Payment Failed"
    case Cancelled => "Payment Cancelled"
    case Expired => "Payment Expired"
    case Unknown => "Payment Status Unknown"
  }

  function Icon(c: Category): string {
    match c
    case Success => "✓"
    case Pending => "⏳"
    case Unknown => "?"
    case _ => "✗"
  }

  function Message(c: Category): string {
    match c
    case Success => "Your payment has been processed successfully."
    case Pending => "Your payment is being processed. This may take a few moments."
    case Failed => "Unfortunately, your payment could not be processed."
    case Cancelled => "Your payment has been cancelled."
    case Expired => "Your payment has been expired."
    case Unknown => "We are unable to determine the payment status at this time."
  }

  /** The writes of updateUI; `session` is sessionStorage's `pendingChargeId`, the default of an absent `chargeId`. */
  function StatusView(data: StatusData, session: Option<string>): (v: View)
    ensures v.category == Classify(data.status)
    ensures v.schedulesRecheck <==> v.category == Pending
    ensures v.showsRetry <==> v.category == Pending || v.category == Unknown
    ensures v.showsInfoBox <==> v.category == Success
    ensures v.errorDetails.Some? <==> v.category == Failed && Truthy(data.error)
    ensures v.errorDetails.Some? ==> v.errorDetails == data.error
    ensures v.texts.statusText == OrElse(data.status, "-")
    ensures v.texts.chargeIdText == OrElse(if data.chargeId.Some? then data.chargeId else session, "-")
    ensures v.texts.methodText == OrElse(data.paymentMethod, "-")
    ensures v.heading == Heading(Icon(v.category), Title(v.category), Message(v.category))
  {
    var c := Classify(data.status);
    var shownChargeId := if data.chargeId.Some? then data.chargeId else session;
    View(c, Heading(Icon(c), Title(c), Message(c)),
         Texts(OrElse(data.status, "-"), OrElse(shownChargeId, "-"), OrElse(data.paymentMethod, "-")),
         c == Pending || c == Unknown,
         c == Pending,
         if c == Failed && Truthy(data.error) then data.error else None,
         c == Success)
  }

  // ---------------------------------------------------------------------------
  // The page's elements
  // ---------------------------------------------------------------------------

  /** The error details element: whether it is shown, and its text. */
  datatype ErrorBox = ErrorBox(shown: bool, text: string)

  /**
   * The state of the elements the page writes: the heading, whether the details
   * block is shown and its texts, whether the retry button is shown, the error
   * details, whether the info box is shown, and how many status checks have been
   * scheduled with `setTimeout`.
   */
  datatype Elements = Elements(
    heading: Heading,
    detailsShown: bool,
    texts: Texts,
    retryShown: bool,
    errorBox: ErrorBox,
    infoBoxShown: bool,
    checksScheduled: nat)

  /**
   * The elements after one call of updateUI: the texts are replaced, an element
   * the call shows is shown, and every element it does not write keeps its state.
   */
  function Render(e: Elements, v: View): (r: Elements)
    ensures r.heading == v.heading && r.detailsShown && r.texts == v.texts
    ensures r.retryShown <==> e.retryShown || v.showsRetry
    ensures r.infoBoxShown <==> e.infoBoxShown || v.showsInfoBox
    ensures r.errorBox.shown <==> e.errorBox.shown || v.errorDetails.Some?
    ensures r.errorBox.text == if v.errorDetails.Some? then v.errorDetails.value else e.errorBox.text
    ensures r.checksScheduled == e.checksScheduled + if v.schedulesRecheck then 1 else 0
  {
    Elements(v.heading, true, v.texts,
             e.retryShown || v.showsRetry,
             if v.errorDetails.Some? then ErrorBox(true, v.errorDetails.value) else e.errorBox,
             e.infoBoxShown || v.showsInfoBox,
             e.checksScheduled + if v.schedulesRecheck then 1 else 0)
  }

  /** The heading shown while a retried check is pending: a spinner, "Checking Status..." and "Please wait...". */
  const CHECKING := Heading("<div class=\"spinner\"></div>", "Checking Status...", "Please wait...")

  /** The retry button's click: show the spinner and "Checking Status...", hide the button, schedule a check. */
  function RetryClicked(e: Elements): (r: Elements)
    ensures !r.retryShown && r.checksScheduled == e.checksScheduled + 1 && r.heading == CHECKING
    ensures r == e.(heading := CHECKING, retryShown := false, checksScheduled := r.checksScheduled)
  {
    e.(heading := CHECKING, retryShown := false, checksScheduled := e.checksScheduled + 1)
  }

  /** updateUI only ever shows the retry button, the error details and the info box; it never hides them. */
  lemma RenderNeverHides(e: Elements, v: View)
    ensures e.retryShown ==> Render(e, v).retryShown
    ensures e.errorBox.shown ==> Render(e, v).errorBox.shown
    ensures e.infoBoxShown ==> Render(e, v).infoBoxShown
  {
  }

  /**
   * A pending status whose recheck comes back successful leaves the page saying
   * "Payment Successful!" with both the retry button and the info box shown, since
   * the success branch does not hide the button the pending branch showed.
   */
  lemma PendingThenSuccessShowsRetry(e: Elements, pending: StatusData, success: StatusData, session: Option<string>)
    requires Classify(pending.status) == Pending && Classify(success.status) == Success
    ensures var r := Render(Render(e, StatusView(pending, session)), StatusView(success, session));
      && r.heading.title == "Payment Successful!"
      && r.retryShown && r.infoBoxShown
      && r.checksScheduled == e.checksScheduled + 1
  {
  }

  /** After a retry click, the retry button is shown again exactly when the next status rendered calls for it. */
  lemma RetryThenRender(e: Elements, v: View)
    ensures Render(RetryClicked(e), v).retryShown <==> v.showsRetry
    ensures Render(RetryClicked(e), v).checksScheduled == e.checksScheduled + 1 + if v.schedulesRecheck then 1 else 0
  {
  }

  // ---------------------------------------------------------------------------
  // URL parameters, the status check and the load-time decision
  // ---------------------------------------------------------------------------

  /** The query string of the page; a missing parameter is None. */
  datatype Query = Query(status: Option<string>, chargeId: Option<string>, methodName: Option<string>)

  /** getUrlParams, with the charge id falling back to sessionStorage. */
  datatype UrlParams = UrlParams(status: Option<string>, chargeId: Option<string>, methodName: Option<string>)

  /** The charge id: the URL's `chargeId` if truthy, else sessionStorage's `pendingChargeId`. */
  function ChargeIdFallback(urlChargeId: Option<string>, session: Option<string>): (r: Option<string>)
    ensures Truthy(urlChargeId) ==> r == urlChargeId
    ensures !Truthy(urlChargeId) ==> r == session
  {
    Or(urlChargeId, session)
  }

  function GetUrlParams(q: Query, session: Option<string>): UrlParams {
    UrlParams(q.status, ChargeIdFallback(q.chargeId, session), q.methodName)
  }

  /** checkPaymentStatus applies the fallback a second time; that changes nothing. */
  lemma FallbackTwiceIsOnce(q: Query, session: Option<string>)
    ensures ChargeIdFallback(GetUrlParams(q, session).chargeId, session) == ChargeIdFallback(q.chargeId, session)
  {
  }

  /** The reply of `GET /api/payments/status/:id`, or the message of a failed fetch. */
  datatype ApiReply =
    | FetchFailed(message: string)
    | ApiBody(success: bool, error: Option<string>, status: Option<string>, chargeId: Option<string>,
              methodName: Option<string>)

  const NO_CHARGE_ID_ERROR := "Unable to verify payment status - no charge ID available"

  /** What checkPaymentStatus does: the charge id it fetches (None: no fetch) and the view it renders. */
  datatype Check = Check(fetched: Option<string>, view: View)

  /** The message of the error a failed check ends with. */
  function CheckErrorMessage(reply: ApiReply): (m: string)
    // a failed fetch: its own message, or the default when that is empty
    ensures reply.FetchFailed? && reply.message != "" ==> m == reply.message
    ensures reply.FetchFailed? && reply.message == "" ==> m == "Failed to verify payment status"
    // success false: the reply's error when truthy, otherwise the fetch default
    ensures reply.ApiBody? && Truthy(reply.error) ==> m == reply.error.value
    ensures reply.ApiBody? && !Truthy(reply.error) ==> m == "Failed to fetch payment status"
    ensures m != ""
  {
    match reply
    case FetchFailed(m) => OrElse(Some(m), "Failed to verify payment status")
    case ApiBody(_, e, _, _, _) => OrElse(e, "Failed to fetch payment status")
  }

  /** checkPaymentStatus: the fetch it makes and the writes of the updateUI call it ends with. */
  function StatusCheck(q: Query, session: Option<string>, reply: ApiReply): (r: Check)
    // the fetch is made exactly when a charge id is known, for that id
    ensures r.fetched.Some? <==> Truthy(ChargeIdFallback(q.chargeId, session))
    ensures r.fetched.Some? ==> r.fetched == ChargeIdFallback(q.chargeId, session)
    // without a charge id: the URL status (or "Unknown") and an error message
    ensures r.fetched.None? ==>
      && r.view.texts.statusText == OrElse(q.status, "Unknown")
      && r.view.category == Classify(Some(OrElse(q.status, "Unknown")))
      && (r.view.category == Failed ==> r.view.errorDetails == Some(NO_CHARGE_ID_ERROR))
      && r.view == StatusView(StatusData(Some(OrElse(q.status, "Unknown")), None, GetUrlParams(q, session).methodName,
                                         Some(NO_CHARGE_ID_ERROR)), session)
    // a failed fetch or a reply with success false renders "Error", a failure
    ensures r.fetched.Some? && (reply.FetchFailed? || !reply.success) ==>
      && r.view.texts.statusText == "Error"
      && r.view.category == Failed
      && r.view.errorDetails.Some?
      && r.view == StatusView(StatusData(Some("Error"), r.fetched, GetUrlParams(q, session).methodName,
                                         Some(CheckErrorMessage(reply))), session)
    // a successful reply renders the reported status
    ensures r.fetched.Some? && reply.ApiBody? && reply.success ==>
      r.view == StatusView(StatusData(reply.status, reply.chargeId, reply.methodName, None), session)
  {
    var params := GetUrlParams(q, session);
    var chargeId := ChargeIdFallback(params.chargeId, session);
    if !Truthy(chargeId) then
      Check(None, StatusView(StatusData(Some(OrElse(params.status, "Unknown")), None, params.methodName,
                                        Some(NO_CHARGE_ID_ERROR)), session))
    else if reply.ApiBody? && reply.success then
      Check(chargeId, StatusView(StatusData(reply.status, reply.chargeId, reply.methodName, None), session))
    else
      ErrorStatusIsFailed();
      Check(chargeId, StatusView(StatusData(Some("Error"), chargeId, params.methodName,
                                            Some(CheckErrorMessage(reply))), session))
  }

  /** What the page does when it loads. */
  datatype LoadAction = QueryApi | RenderNow(view: View)

  /** DOMContentLoaded's decision: query the API when the URL status is empty or says pending/processing. */
  function LoadDecision(q: Query, session: Option<string>): (a: LoadAction)
    ensures a.QueryApi? <==> StatusText(q.status) == "" || SaysPending(StatusText(q.status))
    ensures a.RenderNow? ==>
      a.view == StatusView(StatusData(q.status, ChargeIdFallback(q.chargeId, session), q.methodName, None), session)
  {
    var params := GetUrlParams(q, session);
    var chargeId := ChargeIdFallback(params.chargeId, session);
    var t := StatusText(params.status);
    if t == "" || SaysPending(t) then QueryApi
    else RenderNow(StatusView(StatusData(params.status, chargeId, params.methodName, None), session))
  }

  /** A status rendered directly on load is never pending, so it never schedules a recheck. */
  lemma RenderedOnLoadIsSettled(q: Query, session: Option<string>)
    requires LoadDecision(q, session).RenderNow?
    ensures LoadDecision(q, session).view.category != Pending
    ensures !LoadDecision(q, session).view.schedulesRecheck
  {
  }

  /** The elements after DOMContentLoaded: a check scheduled, or the URL status rendered. */
  function Loaded(e: Elements, q: Query, session: Option<string>): Elements {
    match LoadDecision(q, session)
    case QueryApi => e.(checksScheduled := e.checksScheduled + 1)
    case RenderNow(v) => Render(e, v)
  }

  // ---------------------------------------------------------------------------
  // The page object
  // ---------------------------------------------------------------------------

  /** The return page: its elements, written in place by updateUI and the retry button. */
  class ReturnPageView {
    var heading: Heading
    var detailsShown: bool
    var texts: Texts
    var retryShown: bool
    var errorBox: ErrorBox
    var infoBoxShown: bool
    var checksScheduled: nat

    function Snapshot(): Elements
      reads this
    {
      Elements(heading, detailsShown, texts, retryShown, errorBox, infoBoxShown, checksScheduled)
    }

    /** The elements as the page's markup sets them up. */
    constructor(markup: Elements)
      ensures Snapshot() == markup
    {
      heading, detailsShown, texts := markup.heading, markup.detailsShown, markup.texts;
      retryShown, errorBox, infoBoxShown := markup.retryShown, markup.errorBox, markup.infoBoxShown;
      checksScheduled := markup.checksScheduled;
    }

    /** updateUI: compute the writes of the status's category, then make them. */
    method UpdateUI(data: StatusData, session: Option<string>)
      modifies this
      ensures Snapshot() == Render(old(Snapshot()), StatusView(data, session))
    {
      Write(StatusView(data, session));
    }

    /** The DOM writes of one updateUI call: the details and heading, then the elements its category shows. */
    method Write(v: View)
      modifies this
      ensures Snapshot() == Render(old(Snapshot()), v)
    {
      detailsShown, texts, heading := true, v.texts, v.heading;
      if v.showsInfoBox {
        infoBoxShown := true;
      }
      if v.showsRetry {
        retryShown := true;
      }
      if v.schedulesRecheck {
        checksScheduled := checksScheduled + 1;
      }
      if v.errorDetails.Some? {
        errorBox := ErrorBox(true, v.errorDetails.value);
      }
    }

    /** The retry button's click handler. */
    method RetryClick()
      modifies this
      ensures Snapshot() == RetryClicked(old(Snapshot()))
    {
      heading := CHECKING;
      retryShown := false;
      checksScheduled := checksScheduled + 1;
    }

    /** checkPaymentStatus, given the API's reply; returns the charge id fetched, if any. */
    method CheckPaymentStatus(q: Query, session: Option<string>, reply: ApiReply) returns (fetched: Option<string>)
      modifies this
      ensures fetched == StatusCheck(q, session, reply).fetched
      ensures Snapshot() == Render(old(Snapshot()), StatusCheck(q, session, reply).view)
    {
      var params := GetUrlParams(q, session);
      var chargeId := ChargeIdFallback(params.chargeId, session);
      if !Truthy(chargeId) {
        fetched := None;
        UpdateUI(StatusData(Some(OrElse(params.status, "Unknown")), None, params.methodName,
                            Some(NO_CHARGE_ID_ERROR)), session);
      } else if reply.ApiBody? && reply.success {
        fetched := chargeId;
        UpdateUI(StatusData(reply.status, reply.chargeId, reply.methodName, None), session);
      } else {
        fetched := chargeId;
        UpdateUI(StatusData(Some("Error"), chargeId, params.methodName, Some(CheckErrorMessage(reply))), session);
      }
    }

    /** The DOMContentLoaded handler. */
    method OnLoad(q: Query, session: Option<string>)
      modifies this
      ensures Snapshot() == Loaded(old(Snapshot()), q, session)
    {
      var params := GetUrlParams(q, session);
      var chargeId := ChargeIdFallback(params.chargeId, session);
      var t := StatusText(params.status);
      if t == "" || SaysPending(t) {
        checksScheduled := checksScheduled + 1;
      } else {
        UpdateUI(StatusData(params.status, chargeId, params.methodName, None), session);
      }
    }
  }
}

=== FILE: server.dfy ===
/**
 * The backend of the checkout demo (server.js): the per-method request body
 * sent to the payment gateway, the idempotency store, the decision logic of
 * `POST /api/payments/create`, and the JSON shape of `GET /api/payments/status/:chargeId`.
 *
 * The gateway is not called: its reply is an input value (`GatewayReply`), and the
 * handler reports the call it would make (`GatewayCall`). Order ids are inputs too.
 */
module Server {
  import opened Wrappers
  import opened JsText

  // ---------------------------------------------------------------------------
  // The request body sent to the gateway (generatePaymentData)
  // ---------------------------------------------------------------------------

  datatype Money = Money(value: int, currency: string)
  datatype Client = Client(ip: string, userAgent: string)
  datatype Consumer = Consumer(name: Option<string>, country: string, client: Option<Client>)
  datatype InstrumentDetails = DebitMandate(debitMandateId: string) | BankCode(bankCode: string)
  datatype Instrument = Instrument(kind: string, details: InstrumentDetails)

  /** One entry of `authenticationSettings`. */
  datatype AuthSetting =
    | Redirect(returnUrl: string)
    | MultiFactor
    | ScanCode(scanBy: string)
    | AppIntent(mobileIntentUri: string)

  /** The body of a charge or agreement request; absent blocks are None. */
  datatype PaymentBody = PaymentBody(
    paymentMethod: string,
    amount: Option<Money>,
    order: Option<string>,               // order.orderReferenceNumber
    consumer: Consumer,
    instrument: Option<Instrument>,
    authenticationSettings: seq<AuthSetting>,
    initialPaymentCharge: Option<Money>)  // initialPaymentCharge.amount

  const CONSUMER_NAME := "John Smith"
  const BLIK_CLIENT := Client("11.22.22.33",
    "Mozilla/5.0 (Macintosh; Intel Mac OS X 10_15_7) AppleWebKit/537.36 (KHTML, like Gecko) Chrome/135.0.0.0 Safari/537.36")
  const DEBIT_MANDATE_ID := "YOUR_GENERATED_MANDATEID"
  const IDEAL_BANK_CODE := "TESTNL2A"
  const SCAN_BY := "2025-06-22T11:09:22.937Z"
  const MOBILE_INTENT_URI := "webshop://paymentresponse?123"

  /** The gateway method codes the body builder knows. */
  predicate IsPproCode(code: string) {
    code == "IDEAL" || code == "BLIK" || code == "BANCONTACT" || code == "BANCONTACTQR"
  }

  /** The return URL of the REDIRECT authentication setting. */
  function ReturnUrlFor(returnUrl: string, orderId: string, code: string): string {
    returnUrl + "?orderId=" + orderId + "&method=" + code
  }

  /**
   * generatePaymentData: the gateway request body for a method code, or None
   * (`undefined`) for a code it does not know.
   */
  function GeneratePaymentData(code: string, currency: string, amount: int, orderId: string,
                               recurring: bool, returnUrl: string): (r: Option<PaymentBody>)
    ensures r.Some? <==> IsPproCode(code)
    ensures r.Some? ==>
      && |r.value.authenticationSettings| >= 1
      && r.value.authenticationSettings[0] == Redirect(ReturnUrlFor(returnUrl, orderId, code))
      && r.value.paymentMethod == (if code == "BANCONTACTQR" then "BANCONTACT" else code)
      && r.value.consumer.country == (if code == "IDEAL" then "NL" else if code == "BLIK" then "PL" else "BE")
    ensures r.Some? ==>
      r.value.authenticationSettings[1..] ==
        if code == "IDEAL" then []
        else if code == "BLIK" then [MultiFactor]
        else [ScanCode(SCAN_BY), AppIntent(MOBILE_INTENT_URI)]
    ensures r.Some? && !(code == "IDEAL" && recurring) ==>
      && r.value.amount == Some(Money(amount, currency))
      && r.value.order == Some(orderId)
      && r.value.initialPaymentCharge == None
    ensures r.Some? && code == "IDEAL" && recurring ==>
      && r.value.amount == None
      && r.value.order == None
      && r.value.initialPaymentCharge == Some(Money(amount, currency))
  {
    var money := Money(amount, currency);
    var redirect := Redirect(ReturnUrlFor(returnUrl, orderId, code));
    if code == "IDEAL" then
      if recurring then
        Some(PaymentBody(code, None, None, Consumer(Some(CONSUMER_NAME), "NL", None),
                         Some(Instrument("BANK_ACCOUNT", DebitMandate(DEBIT_MANDATE_ID))),
                         [redirect], Some(money)))
      else
        Some(PaymentBody(code, Some(money), Some(orderId), Consumer(None, "NL", None),
                         Some(Instrument("BANK_ACCOUNT", BankCode(IDEAL_BANK_CODE))),
                         [redirect], None))
    else if code == "BLIK" then
      Some(PaymentBody(code, Some(money), Some(orderId), Consumer(Some(CONSUMER_NAME), "PL", Some(BLIK_CLIENT)),
                       None, [redirect, MultiFactor], None))
    else if code == "BANCONTACT" || code == "BANCONTACTQR" then
      Some(PaymentBody("BANCONTACT", Some(money), Some(orderId), Consumer(None, "BE", None),
                       None, [redirect, ScanCode(SCAN_BY), AppIntent(MOBILE_INTENT_URI)], None))
    else
      None
  }

  /** The recurring flag changes the body of IDEAL only. */
  lemma RecurringOnlyAffectsIdeal(code: string, currency: string, amount: int, orderId: string, returnUrl: string)
    requires code != "IDEAL"
    ensures GeneratePaymentData(code, currency, amount, orderId, true, returnUrl)
         == GeneratePaymentData(code, currency, amount, orderId, false, returnUrl)
  {
  }

  /**
   * BANCONTACTQR sends the same body as BANCONTACT except for the method named
   * in the return URL of the first authentication setting.
   */
  lemma BancontactQrBody(currency: string, amount: int, orderId: string, recurring: bool, returnUrl: string)
    ensures
      var qr := GeneratePaymentData("BANCONTACTQR", currency, amount, orderId, recurring, returnUrl).value;
      var plain := GeneratePaymentData("BANCONTACT", currency, amount, orderId, recurring, returnUrl).value;
      && qr.paymentMethod == "BANCONTACT"
      && qr == plain.(authenticationSettings := [Redirect(ReturnUrlFor(returnUrl, orderId, "BANCONTACTQR"))]
                                                 + plain.authenticationSettings[1..])
  {
  }

  // ---------------------------------------------------------------------------
  // The create request and its validation
  // ---------------------------------------------------------------------------

  /** The JSON body of `POST /api/payments/create`; a missing field is None. */
  datatype CreateRequest = CreateRequest(
    methodName: Option<string>,
    currency: Option<string>,
    amount: Option<int>,
    recurring: bool,
    idempotencyKey: Option<string>)

  /** `!method || !currency || !amount` is false: all three are present and truthy (amount 0 is falsy). */
  predicate HasRequiredFields(req: CreateRequest) {
    Truthy(req.methodName) && Truthy(req.currency) && req.amount.Some? && req.amount.value != 0
  }

  /** The idempotency key in force: the body's `idempotencyKey`, else the `x-idempotency-key` header. */
  function IdempotencyKey(req: CreateRequest, headerKey: Option<string>): (k: Option<string>)
    ensures Truthy(req.idempotencyKey) ==> k == req.idempotencyKey
    ensures !Truthy(req.idempotencyKey) ==> k == headerKey
  {
    Or(req.idempotencyKey, headerKey)
  }

  // ---------------------------------------------------------------------------
  // Method mapping
  // ---------------------------------------------------------------------------

  /** The own properties of the handler's `methodMap` object literal. */
  const METHOD_MAP: map<string, string> :=
    map["blik" := "BLIK", "ideal" := "IDEAL", "bancontact" := "BANCONTACT", "bancontactqr" := "BANCONTACTQR"]

  /**
   * The property names an object literal inherits from `Object.prototype` that a
   * lower-cased key can reach. The others (`toString`, `valueOf`, `hasOwnProperty`,
   * `__defineGetter__`, ...) all contain a capital letter, so `method.toLowerCase()`
   * never names them.
   */
  const OBJECT_PROTOTYPE_KEYS: set<string> := {"constructor", "__proto__"}

  /** What `methodMap[key]` yields: an own code, an inherited (truthy) member, or `undefined`. */
  datatype MethodLookup = Code(code: string) | Inherited(name: string) | Undefined

  /**
   * `methodMap[method.toLowerCase()]` as written: a property lookup on an object
   * literal, which also finds the members inherited from `Object.prototype`.
   */
  function LookupMethodAsWritten(name: string): (r: MethodLookup)
    ensures r.Inherited? ==> !IsPproCode(r.name)
  {
    LookupProperty(ToLower(name))
  }

  /** `methodMap[key]` for a key already lower-cased. */
  function LookupProperty(key: string): MethodLookup {
    if key in METHOD_MAP then Code(METHOD_MAP[key])
    else if key in OBJECT_PROTOTYPE_KEYS then Inherited(key)
    else Undefined
  }

  /**
   * As written, the names "constructor" and "__proto__" pass the `!pproMethod` guard
   * (the inherited function and prototype object are truthy) although they name no
   * payment method. `generatePaymentData` then returns undefined, so the gateway is
   * called without a body, where the intended mapping refuses both with 400.
   */
  lemma InheritedKeyPassesMethodGuard()
    ensures LookupMethodAsWritten("constructor") == Inherited("constructor")
    ensures LookupMethodAsWritten("__proto__") == Inherited("__proto__")
    ensures !IsPproCode("constructor") && !IsPproCode("__proto__")
    ensures MapMethod("constructor").None? && MapMethod("__proto__").None?
  {
    LowerIsFixed("constructor");
    LowerIsFixed("__proto__");
    assert LookupProperty("constructor") == Inherited("constructor");
    assert LookupProperty("__proto__") == Inherited("__proto__");
  }

  /** The case-insensitive names of the four supported methods. */
  predicate IsMethodName(name: string) {
    name == "blik" || name == "ideal" || name == "bancontact" || name == "bancontactqr"
  }

  /**
   * The method mapping as intended: the gateway code of a case-insensitive method
   * name, and None (400 "Invalid payment method") for every other string.
   */
  function MapMethod(name: string): (r: Option<string>)
    ensures r.Some? <==> IsMethodName(ToLower(name))
    ensures r.Some? ==> IsPproCode(r.value)
    ensures ToLower(name) == "blik" ==> r == Some("BLIK")
    ensures ToLower(name) == "ideal" ==> r == Some("IDEAL")
    ensures ToLower(name) == "bancontact" ==> r == Some("BANCONTACT")
    ensures ToLower(name) == "bancontactqr" ==> r == Some("BANCONTACTQR")
  {
    var k := ToLower(name);
    if k in METHOD_MAP then Some(METHOD_MAP[k]) else None
  }

  /** Mapping is insensitive to case. */
  lemma MapMethodIgnoresCase(name: string)
    ensures MapMethod(name) == MapMethod(ToLower(name))
  {
    ToLowerIdempotent(name);
  }

  /** The intended mapping agrees with the lookup as written wherever the latter finds an own property. */
  lemma MapMethodAgreesOnOwnKeys(name: string)
    ensures MapMethod(name).Some? <==> LookupMethodAsWritten(name).Code?
    ensures MapMethod(name).Some? ==> MapMethod(name).value == LookupMethodAsWritten(name).code
  {
  }

  // ---------------------------------------------------------------------------
  // The gateway's reply and the selection of the response fields
  // ---------------------------------------------------------------------------

  datatype AuthDetails = AuthDetails(requestUrl: Option<string>, codePayload: Option<string>)
  datatype AuthMethod = AuthMethod(details: Option<AuthDetails>)
  datatype OrderInfo = OrderInfo(orderReferenceNumber: Option<string>)

  /** The fields of a charge or agreement the handler reads; a missing field is None. */
  datatype Charge = Charge(
    id: Option<string>,
    status: Option<string>,
    paymentMethod: Option<string>,
    order: Option<OrderInfo>,
    authenticationMethods: Option<seq<AuthMethod>>,
    initialPaymentChargeId: Option<string>,
    instrumentId: Option<string>)

  /** A failed call carries the reply's `error` and `message` fields; a successful one the decoded charge. */
  datatype GatewayReply = GatewayFailed(error: Option<string>, message: Option<string>) | GatewayOk(charge: Charge)

  /** The message of the error a failed gateway call throws: `data.error || data.message || "PPRO API request failed"`. */
  function GatewayErrorMessage(error: Option<string>, message: Option<string>): (m: string)
    ensures Truthy(error) ==> m == error.value
    ensures !Truthy(error) && Truthy(message) ==> m == message.value
    ensures !Truthy(error) && !Truthy(message) ==> m == "PPRO API request failed"
    ensures m != ""
  {
    OrElse(Or(error, message), "PPRO API request failed")
  }

  /** The message of the TypeError thrown when reading `prop` of `undefined`. */
  function ReadingUndefined(prop: string): string {
    "Cannot read properties of undefined (reading '" + prop + "')"
  }

  /** Which entry of `authenticationMethods` is read: `[0]`, `[1]` or `.at(-1)`. */
  datatype Slot = First | Second | Last

  /** The property read on the `authenticationMethods` list to reach a slot. */
  function SlotProperty(slot: Slot): string {
    match slot
    case First => "0"
    case Second => "1"
    case Last => "at"
  }

  /** The entry at a slot, None when the list is too short. */
  function EntryAt(ms: seq<AuthMethod>, slot: Slot): Option<AuthMethod> {
    match slot
    case First => if |ms| >= 1 then Some(ms[0]) else None
    case Second => if |ms| >= 2 then Some(ms[1]) else None
    case Last => if |ms| >= 1 then Some(ms[|ms| - 1]) else None
  }

  /** `charge.authenticationMethods[slot].details`, or the TypeError reading it throws. */
  function DetailsAt(charge: Charge, slot: Slot, field: string): (r: Result<AuthDetails>)
    ensures r.Ok? <==>
      && charge.authenticationMethods.Some?
      && EntryAt(charge.authenticationMethods.value, slot).Some?
      && EntryAt(charge.authenticationMethods.value, slot).value.details.Some?
    ensures r.Ok? ==> r.value == EntryAt(charge.authenticationMethods.value, slot).value.details.value
    // each missing link throws the TypeError for the property read on it
    ensures charge.authenticationMethods.None? ==> r == Err(ReadingUndefined(SlotProperty(slot)))
    ensures charge.authenticationMethods.Some? && EntryAt(charge.authenticationMethods.value, slot).None? ==>
      r == Err(ReadingUndefined("details"))
    ensures charge.authenticationMethods.Some? && EntryAt(charge.authenticationMethods.value, slot).Some?
            && EntryAt(charge.authenticationMethods.value, slot).value.details.None? ==>
      r == Err(ReadingUndefined(field))
  {
    match charge.authenticationMethods
    case None => Err(ReadingUndefined(SlotProperty(slot)))
    case Some(ms) =>
      match EntryAt(ms, slot)
      case None => Err(ReadingUndefined("details"))
      case Some(m) =>
        match m.details
        case None => Err(ReadingUndefined(field))
        case Some(d) => Ok(d)
  }

  /** The JSON result of a successful create; `success: true` is implicit. */
  datatype CreateResult = CreateResult(
    chargeId: Option<string>,
    orderId: Option<string>,
    redirectUrl: Option<string>,
    status: Option<string>,
    paymentMethod: Option<string>,
    qrCode: Option<string>,
    amount: int,
    currency: string)

  /**
   * The redirect URL and QR payload read out of a gateway reply: recurring reads
   * entry 0; otherwise the raw method "bancontact" reads the last entry,
   * "bancontactQR" (case-sensitive) reads the code payload of entry 1, and every
   * other method reads entry 0. Returns (redirectUrl, qrCode).
   */
  function SelectLinks(rawMethod: string, recurring: bool, charge: Charge): (r: Result<(Option<string>, Option<string>)>)
    ensures !recurring && rawMethod == "bancontactQR" ==>
      (r.Ok? <==> DetailsAt(charge, Second, "codePayload").Ok?) &&
      (r.Ok? ==> r.value == (Some(""), DetailsAt(charge, Second, "codePayload").value.codePayload))
    ensures !recurring && rawMethod == "bancontact" ==>
      (r.Ok? <==> DetailsAt(charge, Last, "requestUrl").Ok?) &&
      (r.Ok? ==> r.value == (DetailsAt(charge, Last, "requestUrl").value.requestUrl, Some("")))
    ensures (recurring || (rawMethod != "bancontact" && rawMethod != "bancontactQR")) ==>
      (r.Ok? <==> DetailsAt(charge, First, "requestUrl").Ok?) &&
      (r.Ok? ==> r.value == (DetailsAt(charge, First, "requestUrl").value.requestUrl, Some("")))
  {
    if recurring then
      match DetailsAt(charge, First, "requestUrl")
      case Err(e) => Err(e)
      case Ok(d) => Ok((d.requestUrl, Some("")))
    else if rawMethod == "bancontact" then
      match DetailsAt(charge, Last, "requestUrl")
      case Err(e) => Err(e)
      case Ok(d) => Ok((d.requestUrl, Some("")))
    else if rawMethod == "bancontactQR" then
      match DetailsAt(charge, Second, "codePayload")
      case Err(e) => Err(e)
      case Ok(d) => Ok((Some(""), d.codePayload))
    else
      match DetailsAt(charge, First, "requestUrl")
      case Err(e) => Err(e)
      case Ok(d) => Ok((d.requestUrl, Some("")))
  }

  /**
   * The create result built from a gateway reply: the links of SelectLinks; for a
   * recurring request the local order id and `initialPaymentChargeId`, otherwise
   * `charge.order.orderReferenceNumber` and `charge.id`; status, method, amount and
   * currency passed through. A missing entry or `order` block is an Err (a TypeError).
   */
  function SelectResponse(rawMethod: string, recurring: bool, orderId: string, charge: Charge,
                          amount: int, currency: string): (r: Result<CreateResult>)
    ensures r.Ok? <==> SelectLinks(rawMethod, recurring, charge).Ok? && (recurring || charge.order.Some?)
    ensures r.Ok? ==>
      && (r.value.redirectUrl, r.value.qrCode) == SelectLinks(rawMethod, recurring, charge).value
      && r.value.orderId == (if recurring then Some(orderId) else charge.order.value.orderReferenceNumber)
      && r.value.chargeId == (if recurring then charge.initialPaymentChargeId else charge.id)
      && r.value.status == charge.status
      && r.value.paymentMethod == charge.paymentMethod
      && r.value.amount == amount && r.value.currency == currency
  {
    match SelectLinks(rawMethod, recurring, charge)
    case Err(e) => Err(e)
    case Ok(links) =>
      if !recurring && charge.order.None? then Err(ReadingUndefined("orderReferenceNumber"))
      else
        var orderRef := if recurring then Some(orderId) else charge.order.value.orderReferenceNumber;
        var chargeId := if recurring then charge.initialPaymentChargeId else charge.id;
        Ok(CreateResult(chargeId, orderRef, links.0, charge.status, charge.paymentMethod, links.1, amount, currency))
  }

  /** With the lower-case name "bancontactqr" the QR payload is not read: entry 0's URL is. */
  lemma LowerCaseQrNameReadsFirstEntry(charge: Charge)
    ensures SelectLinks("bancontactqr", false, charge) == SelectLinks("ideal", false, charge)
    ensures MapMethod("bancontactqr") == Some("BANCONTACTQR")
  {
    LowerIsFixed("bancontactqr");
  }

  // ---------------------------------------------------------------------------
  // POST /api/payments/create
  // ---------------------------------------------------------------------------

  const AGREEMENTS_ENDPOINT := "/v1/payment-agreements"
  const CHARGES_ENDPOINT := "/v1/payment-charges"

  /** The POST the handler makes to the gateway. */
  datatype GatewayCall = GatewayCall(endpoint: string, body: PaymentBody, idempotencyKey: Option<string>)

  /** The HTTP reply of the handler. */
  datatype HttpReply = Json200(result: CreateResult) | Status400(error: string) | Status500(error: string)

  /** A value of `recurringTokenStore`. */
  datatype RecurringToken = RecurringToken(token: Option<string>, methodName: string, currency: string)

  /** The two module-level maps of the server. */
  datatype Stores = Stores(idempotency: map<string, CreateResult>, recurringTokens: map<Option<string>, RecurringToken>)

  datatype CreateOutcome = CreateOutcome(reply: HttpReply, call: Option<GatewayCall>, stores: Stores)

  /** The HTTP 500 message: `error.message || "Failed to create payment"`. */
  function ServerErrorMessage(message: string): string {
    if message != "" then message else "Failed to create payment"
  }

  /** The request passes validation and its key (if any) is not stored: the handler goes on to map the method. */
  predicate ReachesMapping(s: Stores, req: CreateRequest, headerKey: Option<string>) {
    && HasRequiredFields(req)
    && !(Truthy(IdempotencyKey(req, headerKey)) && IdempotencyKey(req, headerKey).value in s.idempotency)
  }

  /**
   * The create handler as a function of the stores before the request: the reply,
   * the gateway call made (if any) and the stores after it.
   */
  function Create(s: Stores, req: CreateRequest, headerKey: Option<string>, orderId: string,
                  returnUrl: string, gateway: GatewayReply): (o: CreateOutcome)
    // a request missing a required field is refused before the store or the gateway is touched
    ensures !HasRequiredFields(req) ==> o == CreateOutcome(Status400("Missing required fields"), None, s)
    // a key already in the store returns the stored result unchanged, without a gateway call
    ensures HasRequiredFields(req) && Truthy(IdempotencyKey(req, headerKey))
            && IdempotencyKey(req, headerKey).value in s.idempotency ==>
      o == CreateOutcome(Json200(s.idempotency[IdempotencyKey(req, headerKey).value]), None, s)
    // an unknown method is refused before the gateway is called
    ensures HasRequiredFields(req) && MapMethod(req.methodName.value).None? ==> o.call.None? && o.stores == s
    ensures ReachesMapping(s, req, headerKey) && MapMethod(req.methodName.value).None? ==>
      o == CreateOutcome(Status400("Invalid payment method"), None, s)
    // a known method that gets past the store calls the gateway
    ensures ReachesMapping(s, req, headerKey) && MapMethod(req.methodName.value).Some? ==> o.call.Some?
    // a failed call is answered 500 with the gateway's message, and nothing is stored
    ensures o.call.Some? && gateway.GatewayFailed? ==>
      o.reply == Status500(GatewayErrorMessage(gateway.error, gateway.message)) && o.stores == s
    // a successful call is answered with the selected result, or 500 when the reply cannot be read
    ensures o.call.Some? && gateway.GatewayOk? ==>
      match SelectResponse(req.methodName.value, req.recurring, orderId, gateway.charge,
                           req.amount.value, req.currency.value)
      case Ok(res) => o.reply == Json200(res)
      case Err(e) => o.reply == Status500(ServerErrorMessage(e)) && o.stores == s
    ensures o.reply.Status400? ==> o.call.None? && o.stores == s
    // the call made: the endpoint follows the recurring flag, the body is generatePaymentData's
    ensures o.call.Some? ==>
      && HasRequiredFields(req)
      && MapMethod(req.methodName.value).Some?
      && o.call.value.endpoint == (if req.recurring then AGREEMENTS_ENDPOINT else CHARGES_ENDPOINT)
      && Some(o.call.value.body) == GeneratePaymentData(MapMethod(req.methodName.value).value, req.currency.value,
                                                         req.amount.value, orderId, req.recurring, returnUrl)
      && o.call.value.idempotencyKey == IdempotencyKey(req, headerKey)
    // nothing is stored unless the gateway call succeeded
    ensures !(o.call.Some? && o.reply.Json200?) ==> o.stores == s
    // a fresh result is stored under the key in force, if any
    ensures o.call.Some? && o.reply.Json200? ==>
      && o.stores.idempotency == (if Truthy(IdempotencyKey(req, headerKey))
                                  then s.idempotency[IdempotencyKey(req, headerKey).value := o.reply.result]
                                  else s.idempotency)
      && gateway.GatewayOk?
      && Ok(o.reply.result) == SelectResponse(req.methodName.value, req.recurring, orderId, gateway.charge,
                                              req.amount.value, req.currency.value)
      && o.stores.recurringTokens ==
           (if req.recurring
            then s.recurringTokens[gateway.charge.instrumentId :=
                                     RecurringToken(gateway.charge.id, req.methodName.value, req.currency.value)]
            else s.recurringTokens)
      && o.reply.result.amount == req.amount.value
      && o.reply.result.currency == req.currency.value
  {
    if !HasRequiredFields(req) then
      CreateOutcome(Status400("Missing required fields"), None, s)
    else
      var key := IdempotencyKey(req, headerKey);
      if Truthy(key) && key.value in s.idempotency then
        CreateOutcome(Json200(s.idempotency[key.value]), None, s)
      else
        match MapMethod(req.methodName.value)
        case None => CreateOutcome(Status400("Invalid payment method"), None, s)
        case Some(code) =>
          var body := GeneratePaymentData(code, req.currency.value, req.amount.value, orderId, req.recurring, returnUrl).value;
          var call := Some(GatewayCall(if req.recurring then AGREEMENTS_ENDPOINT else CHARGES_ENDPOINT, body, key));
          match gateway
          case GatewayFailed(e, m) =>
            CreateOutcome(Status500(ServerErrorMessage(GatewayErrorMessage(e, m))), call, s)
          case GatewayOk(charge) =>
            match SelectResponse(req.methodName.value, req.recurring, orderId, charge, req.amount.value, req.currency.value)
            case Err(e) => CreateOutcome(Status500(ServerErrorMessage(e)), call, s)
            case Ok(result) =>
              var idem := if Truthy(key) then s.idempotency[key.value := result] else s.idempotency;
              var tokens := if req.recurring
                            then s.recurringTokens[charge.instrumentId := RecurringToken(charge.id, req.methodName.value, req.currency.value)]
                            else s.recurringTokens;
              CreateOutcome(Json200(result), call, Stores(idem, tokens))
  }

  /** Submitting the same key again, while it is stored, returns the first reply without a gateway call. */
  lemma RepeatedKeyReturnsStoredResult(s: Stores, req: CreateRequest, headerKey: Option<string>, orderId: string,
                                       returnUrl: string, gateway: GatewayReply,
                                       req2: CreateRequest, headerKey2: Option<string>, orderId2: string,
                                       gateway2: GatewayReply)
    requires Create(s, req, headerKey, orderId, returnUrl, gateway).reply.Json200?
    requires Truthy(IdempotencyKey(req, headerKey))
    requires HasRequiredFields(req2) && IdempotencyKey(req2, headerKey2) == IdempotencyKey(req, headerKey)
    ensures
      var first := Create(s, req, headerKey, orderId, returnUrl, gateway);
      Create(first.stores, req2, headerKey2, orderId2, returnUrl, gateway2) == CreateOutcome(first.reply, None, first.stores)
  {
  }

  /** Once a key is no longer stored (evicted), a valid request with a known method calls the gateway again. */
  lemma EvictedKeyCallsGateway(s: Stores, req: CreateRequest, headerKey: Option<string>, orderId: string,
                               returnUrl: string, gateway: GatewayReply)
    requires HasRequiredFields(req) && MapMethod(req.methodName.value).Some?
    requires Truthy(IdempotencyKey(req, headerKey)) ==> IdempotencyKey(req, headerKey).value !in s.idempotency
    ensures Create(s, req, headerKey, orderId, returnUrl, gateway).call.Some?
  {
  }

  /** The server's state: the idempotency store and the recurring token store, updated in place. */
  class PaymentServer {
    var idempotencyStore: map<string, CreateResult>
    var recurringTokenStore: map<Option<string>, RecurringToken>
    const returnUrl: string

    function Snapshot(): Stores
      reads this
    {
      Stores(idempotencyStore, recurringTokenStore)
    }

    constructor(returnUrl: string)
      ensures this.returnUrl == returnUrl
      ensures idempotencyStore == map[] && recurringTokenStore == map[]
    {
      this.returnUrl := returnUrl;
      idempotencyStore := map[];
      recurringTokenStore := map[];
    }

    /** checkIdempotency: the stored result for `key`, or null. */
    method CheckIdempotency(key: string) returns (cached: Option<CreateResult>)
      ensures cached.Some? <==> key in idempotencyStore
      ensures cached.Some? ==> cached.value == idempotencyStore[key]
    {
      if key in idempotencyStore {
        cached := Some(idempotencyStore[key]);
      } else {
        cached := None;
      }
    }

    /** storeIdempotency: record `result` under `key`; every other key keeps its entry. */
    method StoreIdempotency(key: string, result: CreateResult)
      modifies this`idempotencyStore
      ensures idempotencyStore == old(idempotencyStore)[key := result]
      ensures key in idempotencyStore && idempotencyStore[key] == result
      ensures forall k :: k != key ==> Lookup(idempotencyStore, k) == Lookup(old(idempotencyStore), k)
    {
      idempotencyStore := idempotencyStore[key := result];
    }

    /** The eviction timer of `key` firing: the entry is deleted. */
    method EvictIdempotency(key: string)
      modifies this`idempotencyStore
      ensures idempotencyStore == old(idempotencyStore) - {key}
      ensures key !in idempotencyStore
    {
      idempotencyStore := idempotencyStore - {key};
    }

    /** POST /api/payments/create, step by step with early returns. */
    method CreatePayment(req: CreateRequest, headerKey: Option<string>, orderId: string, gateway: GatewayReply)
      returns (reply: HttpReply, call: Option<GatewayCall>)
      modifies this
      ensures CreateOutcome(reply, call, Snapshot()) == Create(old(Snapshot()), req, headerKey, orderId, returnUrl, gateway)
    {
      call := None;
      if !HasRequiredFields(req) {
        reply := Status400("Missing required fields");
        return;
      }
      var key := IdempotencyKey(req, headerKey);
      if Truthy(key) {
        var cached := CheckIdempotency(key.value);
        if cached.Some? {
          reply := Json200(cached.value);
          return;
        }
      }
      var code := MapMethod(req.methodName.value);
      if code.None? {
        reply := Status400("Invalid payment method");
        return;
      }
      var body := GeneratePaymentData(code.value, req.currency.value, req.amount.value, orderId, req.recurring, returnUrl);
      var endpoint := if req.recurring then AGREEMENTS_ENDPOINT else CHARGES_ENDPOINT;
      call := Some(GatewayCall(endpoint, body.value, key));
      if gateway.GatewayFailed? {
        reply := Status500(ServerErrorMessage(GatewayErrorMessage(gateway.error, gateway.message)));
        return;
      }
      var charge := gateway.charge;
      var selected := SelectResponse(req.methodName.value, req.recurring, orderId, charge,
                                     req.amount.value, req.currency.value);
      if selected.Err? {
        reply := Status500(ServerErrorMessage(selected.error));
        return;
      }
      if Truthy(key) {
        StoreIdempotency(key.value, selected.value);
      }
      if req.recurring {
        recurringTokenStore := recurringTokenStore[charge.instrumentId :=
                                 RecurringToken(charge.id, req.methodName.value, req.currency.value)];
      }
      reply := Json200(selected.value);
    }
  }

  /** `Map.get`: the value under `k`, or None. */
  function Lookup(m: map<string, CreateResult>, k: string): Option<CreateResult> {
    if k in m then Some(m[k]) else None
  }

  // ---------------------------------------------------------------------------
  // GET /api/payments/status/:chargeId
  // ---------------------------------------------------------------------------

  datatype Authorizations = Authorizations(amount: Option<Json>)

  /** The fields of a charge lookup the status handler reads. */
  datatype ChargeStatus = ChargeStatus(
    id: Option<string>,
    status: Option<string>,
    amount: Option<Json>,
    authorizations: Option<Authorizations>,
    currency: Option<string>,
    paymentMethod: Option<string>)

  datatype StatusGatewayReply = StatusFailed(error: Option<string>, message: Option<string>) | StatusOk(charge: ChargeStatus)

  /** An HTTP status code and the JSON object sent. */
  datatype JsonReply = JsonReply(httpStatus: int, body: JsonObject)

  /** A string field as `JSON.stringify` writes it: absent when undefined. */
  function StringField(v: Option<string>): Option<Json> {
    if v.Some? then Some(JStr(v.value)) else None
  }

  /** The redirect URL of the status reply; the route's `orderId` is undefined and prints as such. */
  function StatusRedirectUrl(returnUrl: string, charge: ChargeStatus): string {
    returnUrl + "?orderId=undefined&status=" + ShowUndefined(charge.status) + "&chargeId=" + ShowUndefined(charge.id)
  }

  /** `charge.amount || charge.authorizations.amount` can be read: the amount is truthy or the authorizations exist. */
  predicate AmountReadable(charge: ChargeStatus) {
    JsonTruthy(charge.amount) || charge.authorizations.Some?
  }

  /**
   * The status handler. Its route has no `:orderId` parameter, so `orderId` is
   * undefined: it is dropped from the reply and shows as "undefined" in the redirect URL.
   */
  function PaymentStatus(chargeIdParam: string, reply: StatusGatewayReply, returnUrl: string): (r: JsonReply)
    ensures r.httpStatus == 200 || r.httpStatus == 500
    ensures r.httpStatus == 500 ==> r.body.Keys == {"error"}
    // a failed lookup: 500 with the gateway's message
    ensures reply.StatusFailed? ==>
      r.httpStatus == 500 && Get(r.body, "error") == Some(JStr(GatewayErrorMessage(reply.error, reply.message)))
    // a found charge: 200 exactly when its amount can be read, else the TypeError's 500
    ensures reply.StatusOk? ==> (r.httpStatus == 200 <==> AmountReadable(reply.charge))
    ensures reply.StatusOk? && !AmountReadable(reply.charge) ==>
      Get(r.body, "error") == Some(JStr(ReadingUndefined("amount")))
    ensures r.httpStatus == 200 ==>
      && reply.StatusOk?
      && r.body.Keys <= {"success", "chargeId", "status", "amount", "currency", "redirectUrl", "method"}
      && Get(r.body, "success") == Some(JBool(true))
      && Get(r.body, "chargeId") == Some(JStr(chargeIdParam))
      && Get(r.body, "status") == StringField(reply.charge.status)
      && Get(r.body, "amount") == (if JsonTruthy(reply.charge.amount) then reply.charge.amount
                                   else reply.charge.authorizations.value.amount)
      && Get(r.body, "currency") == StringField(reply.charge.currency)
      && Get(r.body, "method") == StringField(reply.charge.paymentMethod)
      && Get(r.body, "redirectUrl") == Some(JStr(StatusRedirectUrl(returnUrl, reply.charge)))
  {
    match reply
    case StatusFailed(e, m) => JsonReply(500, map["error" := JStr(GatewayErrorMessage(e, m))])
    case StatusOk(charge) =>
      if !AmountReadable(charge) then
        JsonReply(500, map["error" := JStr(ReadingUndefined("amount"))])
      else
        var amount := if JsonTruthy(charge.amount) then charge.amount else charge.authorizations.value.amount;
        JsonReply(200, StatusBody(chargeIdParam, charge, amount, StatusRedirectUrl(returnUrl, charge)))
  }

  /** The 200 body of the status handler; `amount` is the amount already looked up. */
  function StatusBody(chargeIdParam: string, charge: ChargeStatus, amount: Option<Json>, redirectUrl: string): (b: JsonObject)
    ensures b.Keys <= {"success", "chargeId", "status", "amount", "currency", "redirectUrl", "method"}
    ensures Get(b, "success") == Some(JBool(true))
    ensures Get(b, "chargeId") == Some(JStr(chargeIdParam))
    ensures Get(b, "redirectUrl") == Some(JStr(redirectUrl))
    ensures Get(b, "status") == StringField(charge.status)
    ensures Get(b, "amount") == amount
    ensures Get(b, "currency") == StringField(charge.currency)
    ensures Get(b, "method") == StringField(charge.paymentMethod)
  {
    var always := map["success" := JBool(true), "chargeId" := JStr(chargeIdParam), "redirectUrl" := JStr(redirectUrl)];
    var withStatus := if charge.status.Some? then always["status" := JStr(charge.status.value)] else always;
    var withAmount := if amount.Some? then withStatus["amount" := amount.value] else withStatus;
    var withCurrency := if charge.currency.Some? then withAmount["currency" := JStr(charge.currency.value)] else withAmount;
    if charge.paymentMethod.Some? then withCurrency["method" := JStr(charge.paymentMethod.value)] else withCurrency
  }
}

=== FILE: wrappers.dfy ===
/** Optional values and results with an error message, as used throughout the model. */
module Wrappers {

  /** A JavaScript value that may be `undefined`/`null` (None) or present (Some). */
  datatype Option<+T> = None | Some(value: T) {
    function GetOr(default: T): T {
      match this
      case Some(v) => v
      case None => default
    }
  }

  /** The outcome of a step that may throw: Ok, or Err carrying the error's message. */
  datatype Result<+T> = Ok(value: T) | Err(error: string)
}
